=== FILE: README.md ===
# grid-path-visualizer in Dafny

A model of the core of grid-path-visualizer. The program is a small window
in which the user edits a grid of cells. In wall mode a click toggles a
wall. In start mode or goal mode a click first clears every old `Start`
(or `Goal`) cell. The clicked cell takes the role only if it is then
empty, so a click on a wall or on the other endpoint just removes the old
one. Space then runs a step-by-step A* search from the start to the goal.
While it runs, every cell the search pops is redrawn, and marked visited
unless its role is `Start` or `Goal`. Once the goal is
popped, the walk back along the predecessor table paints the cells between
the goal and the start as the path.

The project has seven modules, one per part of the program:

- `Types` (types.dfy): the six cell roles, the three placement modes and
  the queue node `State`. It also has the node ordering, which compares
  only the priority (src/types.rs, and the copies in src/main.rs).
- `Grid` (grid.dfy):
  - the field as rows of cell roles;
  - bounds, and reading or writing one cell;
  - the four neighbour directions in the order src/astar.rs tries them (east, west,
    south, north);
  - walks. A walk joins the goal to the start through adjacent open
    cells. A cell is open when it is in bounds and is not a wall, except
    that the start cell is always open because the search enters it
    whatever it holds.
- `Manhattan` (heuristic.dfy): the Manhattan-distance `heuristic` and its
  metric facts.
- `SearchState` (search.dfy):
  - the state of one search: the field, the score table `g`, `came_from`
    and the open queue;
  - the pop, mark and relax steps;
  - the invariants the search loop keeps;
  - the termination measure.

  The binary heap becomes a multiset. A pop may take any node that no
  other node orders strictly before, so ties are left to the container.
  A score missing from `g` stands for `usize::MAX`.
- `SearchProofs` (search_proofs.dfy): the proofs that each pop and each
  relaxation keeps the invariants, that the measure falls, and what the
  loop knows when it stops.
- `AStar` (astar.dfy): the search loop and the reconstruction, and both
  copies of `a_star_step_by_step`. `AStarStepByStep` models the copy in
  src/astar.rs, which returns a found flag. `AStarUnchecked` models the
  copy in src/main.rs, which has no such flag. Each redraw becomes one
  entry of a returned trace: `Expanded(p)` for a popped cell and
  `PathMarked(p)` for a painted one.
- `Session` (session.dfy): the state captured by the event closure of
  src/main.rs and its reaction to each event. The state is the field, the
  mode, `placing_walls`, `should_run_astar`, the cursor, `start_pos` and
  `goal_pos`.
- `Scenario` (scenario.dfy): two concrete runs.
  - The 10 × 10 grid that src/visualizer.rs sets up. The search finds a
    16-step route there. Its coordinates are read as (row, column), as
    `a_star_step_by_step` indexes the field; src/visualizer.rs:45 draws
    `field[x][y]`, so on screen the grid appears transposed.
  - A 1 × 3 grid whose goal is walled off, reached through the editing
    events of the session.

### Stale endpoint positions

A failed start placement still clears the old `Start` cell. It keeps the
old `start_pos` anyway, for example when the click lands on a wall. That
old coordinate can later be made a wall in wall mode. Space only checks
that `start_pos` and `goal_pos` are set, so a search can then begin on a
wall cell. The search marks that start cell visited when it pops it.

`Session.Valid` therefore asks two things of the recorded endpoints:
they lie inside the grid, and every `Start` or `Goal` cell is where they
point. It does not ask that the cell they point to holds the role. For the same reason the wall-preservation
properties exempt the start cell.

## Model

| member | source | states |
|---|---|---|
| Types.CellTypesExhaustive | src/types.rs:7-14 | There are exactly six cell roles. They are pairwise distinct, and every role is one of them. |
| Types.CompareIgnoresPosition | src/types.rs:38-42 | The node ordering `Types.Compare` depends only on the priorities. It is Equal exactly when the priorities are equal, and Less exactly when the first is lower. |
| Types.EqualIsNotIdentity | src/types.rs:30-35 | Two nodes for different cells with the same priority compare Equal but are not equal as values. This is because the derived equality also looks at the position. |
| Types.CompareAntisymmetric | src/main.rs:60-64 | Swapping the operands flips the ordering. |
| Types.PartialCompareIsTotalPreorder | src/types.rs:43-47 | The partial comparison `Types.PartialCompare` always returns Some of the total one. The induced "no later than" relation is reflexive, total and transitive. |
| Manhattan.HeuristicMetric | src/astar.rs:9-13 | The heuristic `Manhattan.Heuristic`, the Manhattan distance, is symmetric. It is zero exactly between a cell and itself. |
| Manhattan.AdjacentIsUnitDistance | src/main.rs:72-76 | Two cells are neighbours exactly when their heuristic distance is 1. |
| Manhattan.AdjacentStep | src/astar.rs:9-13 | One step to a neighbour changes the distance to any target by exactly one. This is what makes the estimate consistent. |
| Manhattan.ChainBound | src/astar.rs:9-13 | Along a walk of neighbours, the distance from the first cell to the j-th is at most j. So the estimate never overstates a walk's length. |
| Grid.NeighbourOrder | src/astar.rs:55-62 | The four directions are visited east, west, south, north. A direction is skipped exactly when it leaves the grid. |
| Grid.NeighbourComplete | src/astar.rs:55-64 | Every in-bounds neighbour of a cell is produced by one of the four directions. |
| Grid.Neighbour | src/astar.rs:55-62 | A direction that yields a cell yields an in-bounds neighbour of the popped cell. |
| SearchState.Initial | src/astar.rs:24-32 | Only the start is scored, at cost 0. No predecessor is recorded. The queue holds the start's node alone, with the estimate as its priority. |
| SearchState.MinimumExists | src/astar.rs:37 | A non-empty queue has a node that no other node orders strictly before, so the pop always has a candidate. |
| SearchState.MarkVisited | src/astar.rs:45-47 | A popped cell becomes Visited unless its role is Start or Goal. Every other cell, the scores and the queue are unchanged. |
| SearchState.Relax | src/astar.rs:70-79 | The neighbour ends up scored at most one more than the popped cell, and no score rises. The state changes exactly when the neighbour was unscored or strictly dearer. It then records the popped cell as predecessor and pushes one node whose priority is the new cost plus the estimate. |
| SearchProofs.InitialInv | src/astar.rs:24-32 | The initial state satisfies the loop invariant. |
| SearchProofs.MarksKeepWalls | src/astar.rs:45-68 | While the search runs, the field has a wall exactly where the original had one, apart from the start cell. |
| SearchProofs.PopKeeps | src/astar.rs:37-47 | Popping a node other than the goal and marking its cell keeps the marks, the scores and the queue entries consistent. Every scored cell stays queued at its cost or relaxed, except the popped one. |
| SearchProofs.ScanKeeps | src/astar.rs:56-80 | Handling one more direction with `SearchState.Scan` (skip it off the grid or at a wall, relax it otherwise) keeps the expansion invariant and relaxes that direction. |
| SearchProofs.RoundDecreases | src/astar.rs:37-81 | One pop-and-expand round never raises the number of unscored cells. If that number stays the same, the sum of scores does not rise. If the sum stays the same too, the queue shrinks. So the loop ends. |
| SearchProofs.ScanParents | src/astar.rs:70-74 | Relaxing one more neighbour records only the popped cell as a new predecessor and keeps every other entry of `came_from`. |
| SearchProofs.ScanRequeued | src/astar.rs:70-79 | Handling one more direction only pushes nodes, and every score it lowers comes with a pushed node carrying that score; nodes are never dropped during an expansion. |
| SearchProofs.GoalWithin | src/astar.rs:37-41 | A minimal queue node at the goal means the goal is scored at no more than the number of steps of any walk from the start to it. |
| SearchProofs.GoalPopOptimal | src/astar.rs:37-41 | When the goal is popped, its recorded cost is at most the length of every walk from the start to it. |
| SearchProofs.ExhaustedUnreachable | src/astar.rs:83-87 | When the queue runs dry, the goal was never scored and no walk joins it to the start. |
| AStar.Expand | src/astar.rs:54-80 | After the four directions, every open neighbour of the popped cell is scored at most one more than it. The invariants hold again, and the field is untouched. Every predecessor recorded during the expansion is the popped cell; the others are kept. |
| AStar.Round | src/astar.rs:43-80 | One round keeps the loop invariant, appends the popped cell to the trace, and lowers the termination measure. Every recorded predecessor is still a cell the trace records as expanded. Every scored cell is still queued at its current cost or has been expanded. |
| AStar.Pop | src/astar.rs:37-41 | Popping the goal stops the loop with the goal's cost optimal. Any other pop continues with the invariant kept and the measure lowered. When start and goal coincide, the first pop stops; otherwise the first pop expands the start. A pop that continues appends exactly one redraw to the trace. Every recorded predecessor stays an expanded cell of the trace. A pop that continues keeps every scored cell queued at its current cost or expanded. |
| AStar.Explore | src/astar.rs:24-81 | The loop ends. If it reports found, the goal is scored, at a cost no greater than the length of any walk to it. Otherwise the goal is unscored and unreachable. The field carries exactly the visit marks of the trace. When start and goal coincide, it reports found and nothing is expanded; otherwise the first redraw expands the start. Every predecessor in `came_from` is a cell the trace records as expanded. When it reports not found, every cell reachable from the start was expanded, whatever order the heap pops in. |
| AStar.ExhaustedExpanded | src/astar.rs:37-47 | When the queue runs dry, every cell reachable from the start appears in the trace as expanded: a scored cell leaves the queue only by a pop, and every reachable cell was scored. |
| AStar.RouteWalk | src/astar.rs:89-99 | The walk back along `came_from` from a scored cell ends at the start and meets it nowhere else. It steps between neighbours through scored cells. Its number of steps is at most the cost of the cell it began at, so the loop ends. |
| AStar.Route | src/astar.rs:89-99 | The walk back along `came_from` begins at the cell it starts from; `AStar.RouteWalk`, `AStar.RouteParents` and `AStar.RouteJoins` state the rest. |
| AStar.ScoredReachable | src/astar.rs:66-73 | A cell only gets a score from a non-wall neighbour that already has one, so every scored cell is joined to the start by its walk back through open cells. |
| AStar.ExpandedReachable | src/astar.rs:37-52 | Any cell the trace records as expanded is open, reachable from the start, and not the goal. |
| AStar.RouteParents | src/astar.rs:89-99 | Each step of the walk back goes from a cell to the predecessor `came_from` records for it. |
| AStar.RouteExpanded | src/astar.rs:73 | A predecessor is only recorded for the cell being expanded, so when every recorded predecessor was expanded, every cell strictly inside the route from the goal was expanded too. |
| AStar.RouteJoins | src/astar.rs:89-99 | The walk back from the goal joins it to the start through open cells. Its interior avoids both ends. |
| AStar.PaintPath | src/astar.rs:93-98 | Exactly the given cells become Path, each with one redraw, in order. Every other cell keeps its role. |
| AStar.Finish | src/astar.rs:89-101 | After the goal was popped, the returned route is a shortest walk from the start to the goal. Its interior is painted Path over the visit marks, and its marks follow the expansions in the trace. Every cell marked as path was expanded earlier in the trace. |
| AStar.AStarStepByStep | src/astar.rs:16-102 | The result is true exactly when some walk joins the start to the goal. If so, the route is no longer than any such walk. Every cell ends as Path if it is inside the route, as Visited if it was expanded (unless its role is Start or Goal), and unchanged otherwise. The trace lists the expansions and then one mark per path cell. The first expansion is the start, no expansion is the goal, and every expanded cell is reachable from the start. Every path cell appears among the expansions before the marks. Walls survive, except at the start. When start and goal coincide, nothing is expanded or painted. When the goal is not reached, the route is empty and the expanded cells are exactly the cells reachable from the start, all marked Visited unless their role is Start or Goal. |
| AStar.WallsSurvive | src/astar.rs:60-68 | Walls other than the start are never expanded nor on a route, so they keep their role. |
| AStar.AStarUnchecked | src/main.rs:134-212 | The copy without a found flag panics exactly when the goal cannot be reached. Otherwise it returns what the flagged copy returns: a shortest route, painted the same way, whose interior cells were all expanded before the marks. When it panics, the outcome keeps the redraws made before the panic: a trace of expansions only, starting with the start, whose expanded cells are exactly the cells reachable from the start. |
| Session.EmptyField | src/main.rs:219-220 | The initial field has the given size and every cell is Empty. |
| Session.Startup | src/main.rs:216-249 | Before any event the session has the given height and width, every cell Empty, no cursor, no endpoints, no pending run and no exit request. It is editing, in wall mode, and valid. |
| Session.SingleEndpoints | src/main.rs:276-303 | A valid session, which every event keeps valid, holds at most one Start cell and at most one Goal cell. |
| Session.Toggle | src/main.rs:269-275 | In wall mode a wall becomes empty and an empty cell becomes a wall. Any other role, and every other cell, is left alone. |
| Session.ToggleTwice | src/main.rs:269-275 | Toggling a wall or an empty cell twice restores the field. |
| Session.ClearRole | src/main.rs:278-284 | Every cell of the given role becomes Empty. No other cell changes. |
| Session.PlaceEndpointEffect | src/main.rs:276-303 | Placing an endpoint with `Session.PlaceEndpoint` clears every old cell of its role. The clicked cell takes the role exactly when it was empty, or had that role before the clearing. Walls and the other endpoint are never overwritten. |
| Session.PressEffect | src/main.rs:261-309 | A press (`Session.Press`, which hands an in-bounds cell to `Session.Apply`) on a cell inside the grid changes the field only by the mode's rule. The mode's recorded endpoint moves to the cell exactly when the placement succeeds. Nothing else in the session changes. |
| Session.PressIgnored | src/main.rs:261-267 | After editing ended, before the cursor is known, or outside the grid, a press changes nothing. |
| Session.ModeKeys | src/main.rs:318-324 | Under `Session.KeyDown`, W, S and G select the wall, start and goal modes and change nothing else. Other keys change nothing. |
| Session.SpaceGate | src/main.rs:325-333 | Space changes the session exactly when editing with both endpoints recorded. It then leaves editing and requests the run. After editing, or with a run already pending, it changes nothing. A run is pending afterwards exactly when one was pending before or Space started one. The notice is printed exactly when editing with an endpoint missing, and no other notice is printed. |
| Session.ReactValid | src/main.rs:255-342 | Every event other than the end of a batch, handled by `Session.React`, keeps the session valid and the grid's size. Once editing has ended, it also keeps the field, the pending run and the end of editing. |
| Session.Tick | src/main.rs:345-358 | At the end of a batch a pending run is cleared and the search runs once, on the current field with the recorded endpoints. Its result is found exactly when the goal can be reached. The route is then shortest; otherwise it is empty and every cell reachable from the start was expanded. The trace lists the expansions and then one mark per route interior cell, in order, and each marked cell was expanded before. The notice is "no path" when not found and absent when found. The first expansion is the start unless it is the goal, and every expanded cell is reachable from the start. Every cell of the route's interior is among the expansions. Path cells are exactly the route's interior, and Visited cells are exactly the other expanded cells. Start, goal and walls keep their roles, except a stale start. |
| Session.Handle | src/main.rs:252-368 | One event keeps the session valid. A search runs exactly when the batch ends with a run pending. Editing never resumes once it has ended. While editing, only a mouse press changes the field. |
| Session.HandleAll | src/main.rs:252-368 | Over any sequence of events the session stays valid and the search runs at most once. It never runs after editing ended without a pending run. |
| Scenario.VisualizerRun | src/visualizer.rs:86-98 | On the visualizer's grid the search finds a route of 16 steps, which is the Manhattan distance. The route joins goal to start through neighbouring open cells. Exactly its 15 interior cells are painted as path. |
| Scenario.WalledOffEdits | src/main.rs:261-333 | Starting up, placing a start and a goal, walling the cell between them and pressing Space leaves the session valid with a run pending. |
| Scenario.WalledOffRun | src/main.rs:201-211 | On that session the copy in src/main.rs panics, while the flagged copy reports no path. The panic comes after the start was expanded, and the goal never was. |

## Left out

- Drawing is left out: `draw_grid`, `draw_cell_with_border`, the colour table, `CELL_SIZE`, the pixel buffer and `render`. Each redraw during a search is one trace entry, and the `RedrawRequested` event and `request_redraw` change no state.
- The window, the event loop plumbing (`ControlFlow::Poll`) and the 100 ms sleeps are left out. `CloseRequested` sets an exit flag, after which `Session.HandleAll` reads no more events.
- The conversion of the cursor from physical pixels to logical `f64` coordinates, and the division by `CELL_SIZE`, are left out: `CursorMoved` carries cell coordinates directly. A cursor that never moved, or one outside the grid, is modelled.
- The `Cell` struct is represented by its single field, the cell role.
- The binary heap and the hash map are left out as data structures. The queue is a multiset and `came_from` a map. `g_score` is a map whose missing keys stand for `usize::MAX`.
- Fixed-width arithmetic is left out. Costs and estimates are unbounded naturals; in src/astar.rs and src/main.rs they are `usize` and `isize`, which cannot overflow on a grid that fits in memory.
- AStar.AStarStepByStep: the search requires the start to be inside the grid. src/astar.rs would panic on `g_score[start.0][start.1]` otherwise, and the session only records endpoints inside the grid.
- AStar.AStarStepByStep: when the goal is reached, the contract does not say which reachable cells were expanded before it, nor the order of the expansions after the first, because that depends on which of several equally ranked nodes the heap pops first. The contract gives the first expansion (the start), says every expansion is reachable and none is the goal, and fixes the path marks that follow the expansions. When the goal is not reached, the loop only stops once the queue is empty, and the contract says the expanded cells are exactly the reachable ones; only their order after the first is left open.
- AStar.AStarUnchecked: on a panic the outcome carries the redraws but not the field, because the panic ends the program and nothing reads the field afterwards.
- Session.Tick: the run uses the search with the found flag. src/main.rs calls its own copy, which panics when the goal cannot be reached (see Findings). Its "no path" report stands for the message printed by the flagged copy.
- The grid size is a parameter. `main` fixes it at 10 × 10.
- The `main` function of src/visualizer.rs only draws a fixed grid and never runs a search. Its grid appears only as `Scenario.VisualizerRun`.
- src/grid.rs holds only drawing code and is not part of this model.

## Findings

| source | as written | input that shows it | evidently intended | confidence | as-written member | corrected member |
|---|---|---|---|---|---|---|
| src/main.rs:201-211 | After the search loop, the walk back always starts with `came_from[&goal]`. There is no found flag, so a goal that was never reached has no entry and the lookup panics. | A 1 × 3 grid, set up with events: start at (0, 0), goal at (0, 2), a wall at (0, 1), then Space. The Space gate only checks that both endpoints were recorded, so the run starts, the queue runs dry, and the lookup fails. On the 10 × 10 grid of src/main.rs, a goal at (9, 9) walled in by (8, 9) and (9, 8) fails the same way. | Report that there is no path, as the copy in src/astar.rs does with its `found` flag. | not executed | AStar.AStarUnchecked (panics exactly when the goal is unreachable; exhibited by Scenario.WalledOffRun) | AStar.AStarStepByStep (found exactly when reachable; used by Session.Tick) |

=== FILE: astar.dfy ===
/** The step-by-step A* search over the grid: the search loop shared by
    both copies of `a_star_step_by_step`, the walk back along `came_from`
    that marks the path, and the two copies themselves (the one returning
    a found flag, and the one that looks up `came_from[&goal]` with no such
    flag). Each redraw in src/astar.rs and src/main.rs becomes one entry of
    the returned trace. */
module AStar {
  import opened Types
  import opened Grid
  import opened Manhattan
  import opened SearchState
  import opened SearchProofs

  /** Handles the four directions of the popped cell `p`, east, west,
      south, north. Afterwards `p` is relaxed; scores only fell; and the
      queue grew only together with a new score or a lower score sum. */
  method Expand(pb: Problem, s0: Search, p: Pos) returns (s: Search)
    requires pb.WellFormed() && Shaped(s0.field, pb.height, pb.width) && WallsKept(pb, s0.field)
    requires Scores(pb, s0) && Entries(pb, s0) && FrontierExcept(pb, s0, p)
    requires p in s0.g && p != pb.goal
    ensures s.field == s0.field
    ensures Scores(pb, s) && Entries(pb, s) && Frontier(pb, s)
    ensures p in s.g && Relaxed(pb, s.g, p)
    ensures Progress(pb, s0, s)
    ensures ParentsFrom(s0.cameFrom, s.cameFrom, p)
    ensures Requeued(pb, s0, s)
  {
    ExpandStart(pb, s0, p);
    s := s0;
    for d := 0 to |Directions|
      invariant ExpandInv(pb, s0, s, p, d)
      invariant ParentsFrom(s0.cameFrom, s.cameFrom, p)
      invariant Requeued(pb, s0, s)
    {
      ScanKeeps(pb, s0, s, p, d);
      ScanParents(pb, s0.cameFrom, s, p, d);
      ScanRequeued(pb, s0, s, p, d);
      s := Scan(pb, s, p, d);
    }
    ExpandDone(pb, s0, s, p);
  }

  /** One round of the search loop for a popped node `e` that is not the
      goal: remove it, mark its cell visited, record the redraw, and expand
      the cell. The loop's invariant survives and the measure (unreached
      cells, sum of scores, queue size) falls lexicographically. */
  method Round(pb: Problem, s: Search, trace: seq<Step>, e: State) returns (s': Search, trace': seq<Step>)
    requires Inv(pb, s, trace) && ParentsExpanded(s, trace) && IsMinimal(e, s.queue) && e.position != pb.goal
    requires QueuedOrExpanded(pb, s, trace)
    ensures Inv(pb, s', trace') && trace' == trace + [Expanded(e.position)]
    ensures ParentsExpanded(s', trace') && QueuedOrExpanded(pb, s', trace')
    ensures Unreached(pb, s'.g) <= Unreached(pb, s.g)
    ensures Unreached(pb, s'.g) == Unreached(pb, s.g) ==>
              Potential(Cells(pb.height, pb.width), s'.g) <= Potential(Cells(pb.height, pb.width), s.g)
    ensures Unreached(pb, s'.g) == Unreached(pb, s.g)
            && Potential(Cells(pb.height, pb.width), s'.g) == Potential(Cells(pb.height, pb.width), s.g)
            ==> |s'.queue| < |s.queue|
  {
    var p := e.position;
    assert Open(pb.field, pb.start, p);
    var mid := MarkVisited(s.(queue := s.queue - multiset{e}), p);
    PopKeeps(pb, s, trace, e, mid);
    trace' := trace + [Expanded(p)];
    s' := Expand(pb, mid, p);
    assert Marks(pb, s', trace') by {
      forall i | 0 <= i < |trace'| ensures trace'[i].pos in s'.g {
        assert trace'[i].pos in mid.g;
      }
    }
    assert forall r :: r in s'.g ==> InBounds(r, pb.height, pb.width) by {
      forall r | r in s'.g ensures InBounds(r, pb.height, pb.width) {
        assert Open(pb.field, pb.start, r);
      }
    }
    RoundDecreases(pb, s, e, mid, s');
    forall q | q in s'.cameFrom ensures Expanded(s'.cameFrom[q]) in trace' {
      if s'.cameFrom[q] != p {
        assert Expanded(s.cameFrom[q]) in trace;
      }
    }
    RoundRequeued(pb, s, trace, e, mid, s');
  }

  /** A cell leaves the queue only when it is popped, and the pop records
      its expansion. */
  lemma RoundRequeued(pb: Problem, s: Search, trace: seq<Step>, e: State, mid: Search, s': Search)
    requires QueuedOrExpanded(pb, s, trace)
    requires mid.g == s.g && mid.queue == s.queue - multiset{e} && Requeued(pb, mid, s')
    ensures QueuedOrExpanded(pb, s', trace + [Expanded(e.position)])
  {
  }

  /** What the search loop leaves behind: a field carrying visit marks,
      consistent scores, and either the goal scored at the cost of a
      cheapest route, or the goal unscored and unreachable. */
  ghost predicate Explored(pb: Problem, s: Search, trace: seq<Step>, found: bool)
    requires pb.WellFormed()
  {
    && Marks(pb, s, trace) && Scores(pb, s)
    && (found ==> pb.goal in s.g
                  && forall w :: Joins(pb.field, pb.start, pb.goal, w) ==> s.g[pb.goal] <= |w| - 1)
    && (!found ==> pb.goal !in s.g && !Reachable(pb.field, pb.start, pb.goal))
  }

  /** Popping the goal ends the search with its cheapest cost. */
  lemma GoalStop(pb: Problem, s: Search, trace: seq<Step>, e: State)
    requires Inv(pb, s, trace) && IsMinimal(e, s.queue) && e.position == pb.goal
    ensures Explored(pb, s.(queue := s.queue - multiset{e}), trace, true)
  {
    GoalPopOptimal(pb, s, e);
    QueueIrrelevant(pb, s, trace, s.queue - multiset{e});
  }

  /** What the search leaves behind does not depend on the queue. */
  lemma QueueIrrelevant(pb: Problem, s: Search, trace: seq<Step>, queue: multiset<State>)
    requires pb.WellFormed() && Marks(pb, s, trace) && Scores(pb, s)
    ensures Marks(pb, s.(queue := queue), trace) && Scores(pb, s.(queue := queue))
  {
  }

  /** When the queue runs dry, every cell reachable from the start was
      popped and expanded: each scored cell left the queue by a pop, and
      every reachable cell was scored. */
  lemma ExhaustedExpanded(pb: Problem, s: Search, trace: seq<Step>)
    requires Inv(pb, s, trace) && QueuedOrExpanded(pb, s, trace) && s.queue == multiset{}
    ensures forall p :: Reachable(pb.field, pb.start, p) ==> Expanded(p) in trace
  {
    forall p | p in s.g ensures Relaxed(pb, s.g, p) {
      assert !Fresh(pb, s, p);
    }
    forall p | Reachable(pb.field, pb.start, p) ensures Expanded(p) in trace {
      var w :| Joins(pb.field, pb.start, p, w);
      ReachedAlong(pb, s, p, w, 0);
      assert !Fresh(pb, s, p);
    }
  }

  /** An empty queue ends the search without a route. */
  lemma ExhaustedStop(pb: Problem, s: Search, trace: seq<Step>)
    requires Inv(pb, s, trace) && s.queue == multiset{}
    ensures Explored(pb, s, trace, false)
  {
    ExhaustedUnreachable(pb, s);
  }

  /** One pass of the search loop: pop a node of least priority (which of
      several is left to the heap); if it is the goal, stop with its
      cheapest cost; otherwise run a round on it. */
  method Pop(pb: Problem, s: Search, trace: seq<Step>) returns (s': Search, trace': seq<Step>, done: bool)
    requires Inv(pb, s, trace) && ParentsExpanded(s, trace) && QueuedOrExpanded(pb, s, trace)
    requires s.queue != multiset{}
    ensures done ==> Explored(pb, s', trace', true) && trace' == trace && s'.field == s.field
    ensures ParentsExpanded(s', trace')
    ensures !done ==> QueuedOrExpanded(pb, s', trace')
    ensures pb.start == pb.goal && s == Initial(pb) ==> done
    ensures pb.start != pb.goal && s == Initial(pb) ==> !done && trace' == trace + [Expanded(pb.start)]
    ensures !done ==> Inv(pb, s', trace') && |trace'| == |trace| + 1 && trace'[..|trace|] == trace
    ensures !done ==> Unreached(pb, s'.g) <= Unreached(pb, s.g)
    ensures !done && Unreached(pb, s'.g) == Unreached(pb, s.g) ==>
              Potential(Cells(pb.height, pb.width), s'.g) <= Potential(Cells(pb.height, pb.width), s.g)
    ensures !done && Unreached(pb, s'.g) == Unreached(pb, s.g)
            && Potential(Cells(pb.height, pb.width), s'.g) == Potential(Cells(pb.height, pb.width), s.g)
            ==> |s'.queue| < |s.queue|
  {
    MinimumExists(s.queue);
    var e :| IsMinimal(e, s.queue);
    if e.position == pb.goal {
      GoalStop(pb, s, trace, e);
      s', trace', done := s.(queue := s.queue - multiset{e}), trace, true;
    } else {
      s', trace' := Round(pb, s, trace, e);
      done := false;
    }
  }

  /** The search loop (the `while let Some(..) = queue.pop()` of
      src/astar.rs): pop a node of least priority; stop if it is the goal;
      otherwise mark its cell visited, record the redraw, and relax its
      neighbours. Stops with `found` when the goal is popped, which then
      carries the cost of a cheapest route; stops without it exactly when
      no route exists. */
  method Explore(pb: Problem) returns (s: Search, trace: seq<Step>, found: bool)
    requires pb.WellFormed()
    ensures Explored(pb, s, trace, found)
    ensures pb.start == pb.goal ==> found && trace == [] && s.field == pb.field
    ensures OpensAtStart(pb, trace) && ParentsExpanded(s, trace)
    ensures !found ==> forall p :: Reachable(pb.field, pb.start, p) ==> Expanded(p) in trace
  {
    InitialInv(pb);
    s := Initial(pb);
    trace := [];
    while s.queue != multiset{}
      invariant Inv(pb, s, trace)
      invariant pb.start == pb.goal ==> s == Initial(pb) && trace == []
      invariant trace == [] ==> s == Initial(pb)
      invariant trace != [] ==> trace[0] == Expanded(pb.start)
      invariant ParentsExpanded(s, trace) && QueuedOrExpanded(pb, s, trace)
      decreases Unreached(pb, s.g), Potential(Cells(pb.height, pb.width), s.g), |s.queue|
    {
      var done;
      s, trace, done := Pop(pb, s, trace);
      if done {
        found := true;
        return;
      }
    }
    ExhaustedStop(pb, s, trace);
    ExhaustedExpanded(pb, s, trace);
    found := false;
  }

  /** The cells strictly between the two ends of a route. */
  function Interior(route: seq<Pos>): seq<Pos> {
    if |route| < 2 then [] else route[1..|route| - 1]
  }

  /** The recorded predecessor of a scored cell other than the start is a
      scored neighbour with a strictly lower cost. */
  lemma PredecessorStep(pb: Problem, s: Search, p: Pos)
    requires Scores(pb, s) && p in s.g && p != pb.start
    ensures p in s.cameFrom && s.cameFrom[p] in s.g
    ensures Adjacent(p, s.cameFrom[p]) && s.g[s.cameFrom[p]] < s.g[p]
  {
  }

  /** The cells met walking `came_from` back from `p` to the start (the
      `while current != start` loop of src/astar.rs). Each step goes to a
      strictly cheaper cell, so the walk ends. */
  function Route(pb: Problem, s: Search, p: Pos): (r: seq<Pos>)
    requires Scores(pb, s) && p in s.g
    ensures |r| >= 1 && r[0] == p
    decreases s.g[p]
  {
    if p == pb.start then [p]
    else
      PredecessorStep(pb, s, p);
      [p] + Route(pb, s, s.cameFrom[p])
  }

  /** The walk back from `p` ends at the start and meets it nowhere else;
      it steps between neighbours through scored cells, is cheaper than `p`
      after its first cell, and is no longer than the cost of `p`. */
  lemma {:induction false} RouteWalk(pb: Problem, s: Search, p: Pos)
    requires Scores(pb, s) && p in s.g
    ensures var r := Route(pb, s, p);
            && r[|r| - 1] == pb.start
            && Chain(r)
            && (forall i :: 0 <= i < |r| ==> r[i] in s.g)
            && (forall i :: 1 <= i < |r| ==> s.g[r[i]] < s.g[p])
            && (forall i :: 0 <= i < |r| - 1 ==> r[i] != pb.start)
            && |r| - 1 <= s.g[p]
    decreases s.g[p]
  {
    if p != pb.start {
      PredecessorStep(pb, s, p);
      var q := s.cameFrom[p];
      RouteWalk(pb, s, q);
      var rest := Route(pb, s, q);
      var r := Route(pb, s, p);
      assert r == [p] + rest;
      assert forall i :: 1 <= i < |r| ==> r[i] == rest[i - 1];
      assert Adjacent(r[0], r[1]);
    }
  }

  /** `b` is the recorded predecessor of `a`. */
  predicate ParentOf(cameFrom: map<Pos, Pos>, a: Pos, b: Pos) {
    a in cameFrom && cameFrom[a] == b
  }

  /** Each cell of `w` after the first is the recorded predecessor of the
      cell before it. */
  predicate FollowsParents(cameFrom: map<Pos, Pos>, w: seq<Pos>) {
    forall i :: 0 <= i < |w| - 1 ==> ParentOf(cameFrom, w[i], w[i + 1])
  }

  /** The walk back follows the recorded predecessors. */
  lemma {:induction false} RouteParents(pb: Problem, s: Search, p: Pos)
    requires Scores(pb, s) && p in s.g
    ensures FollowsParents(s.cameFrom, Route(pb, s, p))
    decreases s.g[p]
  {
    if p != pb.start {
      PredecessorStep(pb, s, p);
      var q := s.cameFrom[p];
      RouteParents(pb, s, q);
      var rest := Route(pb, s, q);
      var r := Route(pb, s, p);
      assert r == [p] + rest;
      forall i | 0 <= i < |r| - 1 ensures ParentOf(s.cameFrom, r[i], r[i + 1]) {
        if i == 0 {
          assert r[1] == rest[0] == q;
        } else {
          assert r[i] == rest[i - 1] && r[i + 1] == rest[i];
          assert ParentOf(s.cameFrom, rest[i - 1], rest[i]);
        }
      }
    }
  }

  /** The interior of the walk back from the goal is made of recorded
      predecessors, so when every predecessor was expanded, so was every
      cell painted as path. */
  lemma RouteExpanded(pb: Problem, s: Search, trace: seq<Step>)
    requires Scores(pb, s) && pb.goal in s.g && ParentsExpanded(s, trace)
    ensures forall p :: p in Interior(Route(pb, s, pb.goal)) ==> Expanded(p) in trace
  {
    var r := Route(pb, s, pb.goal);
    RouteParents(pb, s, pb.goal);
    forall p | p in Interior(r) ensures Expanded(p) in trace {
      var i :| 0 <= i < |Interior(r)| && Interior(r)[i] == p;
      assert p == r[i + 1] && ParentOf(s.cameFrom, r[i], r[i + 1]);
    }
  }

  /** Every scored cell is reachable: the walk back from it joins it to
      the start through open cells. */
  lemma ScoredReachable(pb: Problem, s: Search, p: Pos)
    requires Scores(pb, s) && p in s.g
    ensures Joins(pb.field, pb.start, p, Route(pb, s, p))
    ensures Reachable(pb.field, pb.start, p)
  {
    var r := Route(pb, s, p);
    RouteWalk(pb, s, p);
    forall i | 0 <= i < |r| ensures Open(pb.field, pb.start, r[i]) {
      assert r[i] in s.g;
    }
    assert Joins(pb.field, pb.start, p, r);
  }

  /** The walk back from the goal joins it to the start through open cells,
      is no longer than the goal's cost, and its interior avoids both
      ends. */
  lemma RouteJoins(pb: Problem, s: Search)
    requires pb.WellFormed() && Shaped(s.field, pb.height, pb.width)
    requires Scores(pb, s) && pb.goal in s.g
    ensures var route := Route(pb, s, pb.goal);
            && Joins(pb.field, pb.start, pb.goal, route) && |route| - 1 <= s.g[pb.goal]
            && (forall p :: p in Interior(route) ==> p != pb.start && p != pb.goal)
            && forall i :: 0 <= i < |Interior(route)| ==> Has(s.field, Interior(route)[i])
  {
    var route := Route(pb, s, pb.goal);
    RouteWalk(pb, s, pb.goal);
    ScoredReachable(pb, s, pb.goal);
    forall p | p in Interior(route) ensures p != pb.start && p != pb.goal {
      var i :| 0 <= i < |Interior(route)| && Interior(route)[i] == p;
      assert p == route[i + 1];
    }
    forall i | 0 <= i < |Interior(route)| ensures Has(s.field, Interior(route)[i]) {
      assert Interior(route)[i] == route[i + 1];
    }
  }

  /** Marks the cells `cells` as path, in order, recording one redraw per
      cell; every other cell keeps its role. */
  method PaintPath(field: Field, cells: seq<Pos>) returns (field': Field, marks: seq<Step>)
    requires forall i :: 0 <= i < |cells| ==> Has(field, cells[i])
    ensures |field'| == |field| && forall r :: 0 <= r < |field| ==> |field'[r]| == |field[r]|
    ensures forall p :: Has(field, p) ==> At(field', p) == if p in cells then Path else At(field, p)
    ensures |marks| == |cells| && forall i :: 0 <= i < |cells| ==> marks[i] == PathMarked(cells[i])
  {
    field', marks := field, [];
    for i := 0 to |cells|
      invariant |field'| == |field| && forall r :: 0 <= r < |field| ==> |field'[r]| == |field[r]|
      invariant forall p :: Has(field, p) ==> At(field', p) == if p in cells[..i] then Path else At(field, p)
      invariant |marks| == i && forall k :: 0 <= k < i ==> marks[k] == PathMarked(cells[k])
    {
      assert Has(field', cells[i]);
      field' := Put(field', cells[i], Path);
      marks := marks + [PathMarked(cells[i])];
      assert cells[..i + 1] == cells[..i] + [cells[i]];
    }
    assert cells[..|cells|] == cells;
  }

  /** The painted role of a cell after a search whose trace is `trace` and
      whose path is `route`: path cells first, then visit marks. */
  function Painted(f0: Field, trace: seq<Step>, route: seq<Pos>, p: Pos): CellType
    requires Has(f0, p)
  {
    if p in Interior(route) then Path else VisitMark(f0, trace, p)
  }

  /** Unless the start is the goal, the first redraw expands the start:
      it is the only node queued at first, and it is not the goal. */
  predicate OpensAtStart(pb: Problem, trace: seq<Step>) {
    pb.start != pb.goal ==> |trace| > 0 && trace[0] == Expanded(pb.start)
  }

  /** The trace is every expansion (the start first, none of them the
      goal, all of them open cells reachable from the start) followed by
      one path mark per interior route cell, goal side first. */
  ghost predicate TraceShape(pb: Problem, trace: seq<Step>, route: seq<Pos>) {
    var n := |trace| - |Interior(route)|;
    && n >= 0
    && (forall i :: 0 <= i < n ==>
          && trace[i].Expanded? && trace[i].pos != pb.goal && Open(pb.field, pb.start, trace[i].pos)
          && Reachable(pb.field, pb.start, trace[i].pos))
    && (pb.start != pb.goal ==> n > 0 && trace[0] == Expanded(pb.start))
    && (forall i :: 0 <= i < |Interior(route)| ==> trace[n + i] == PathMarked(Interior(route)[i]))
  }

  /** Read cell by cell: a cell expanded anywhere in a well-shaped trace is
      open, reachable from the start, and not the goal. */
  lemma ExpandedReachable(pb: Problem, trace: seq<Step>, route: seq<Pos>)
    requires TraceShape(pb, trace, route)
    ensures forall p :: Expanded(p) in trace ==>
              Open(pb.field, pb.start, p) && Reachable(pb.field, pb.start, p) && p != pb.goal
  {
    var n := |trace| - |Interior(route)|;
    forall j | n <= j < |trace| ensures trace[j].PathMarked? {
      assert trace[j] == PathMarked(Interior(route)[j - n]);
    }
    forall p | Expanded(p) in trace
      ensures Open(pb.field, pb.start, p) && Reachable(pb.field, pb.start, p) && p != pb.goal
    {
      var i :| 0 <= i < |trace| && trace[i] == Expanded(p);
    }
  }

  /** Every cell marked as path was expanded earlier: the walk back
      follows recorded predecessors, and only expanded cells are
      recorded as predecessors. */
  ghost predicate PathExpanded(trace: seq<Step>, route: seq<Pos>) {
    var n := |trace| - |Interior(route)|;
    n >= 0 && forall p :: p in Interior(route) ==> Expanded(p) in trace[..n]
  }

  /** The walk back and the path marks once the goal was popped: the route
      is a cheapest one, the interior of the route is painted over the
      visit marks, and its marks follow the expansions in the trace. */
  method Finish(pb: Problem, s: Search, expansions: seq<Step>)
    returns (result: Field, route: seq<Pos>, trace: seq<Step>)
    requires pb.WellFormed() && Explored(pb, s, expansions, true) && OpensAtStart(pb, expansions)
    requires ParentsExpanded(s, expansions)
    ensures Shaped(result, pb.height, pb.width)
    ensures Joins(pb.field, pb.start, pb.goal, route)
    ensures forall w :: Joins(pb.field, pb.start, pb.goal, w) ==> |route| <= |w|
    ensures TraceShape(pb, trace, route) && PathExpanded(trace, route)
    ensures forall p :: InBounds(p, pb.height, pb.width) ==> At(result, p) == Painted(pb.field, trace, route, p)
    ensures forall p :: p in Interior(route) ==> p != pb.start && p != pb.goal
    ensures pb.start == pb.goal && expansions == [] ==> route == [pb.start] && trace == []
  {
    route := Route(pb, s, pb.goal);
    RouteJoins(pb, s);
    var marks;
    result, marks := PaintPath(s.field, Interior(route));
    PaintedShape(pb, s.field, result, Interior(route));
    trace := expansions + marks;
    ExpansionsShape(pb, s, expansions);
    RouteExpanded(pb, s, expansions);
    PaintedAfterSearch(pb, s, expansions, marks, route, result);
  }

  /** A field painted cell by cell over a grid-shaped field keeps its
      shape, read with the grid's bounds. */
  lemma PaintedShape(pb: Problem, f: Field, result: Field, cells: seq<Pos>)
    requires Shaped(f, pb.height, pb.width)
    requires |result| == |f| && forall r :: 0 <= r < |f| ==> |result[r]| == |f[r]|
    requires forall p :: Has(f, p) ==> At(result, p) == if p in cells then Path else At(f, p)
    ensures Shaped(result, pb.height, pb.width)
    ensures forall p :: InBounds(p, pb.height, pb.width) ==> At(result, p) == if p in cells then Path else At(f, p)
  {
  }

  /** `a_star_step_by_step` with its found flag (src/astar.rs). It returns
      the marked field, whether the goal was reached, the route walked back
      from the goal (empty when not found), and the sequence of redraws. */
  method AStarStepByStep(field: Field, start: Pos, goal: Pos, height: nat, width: nat)
    returns (result: Field, found: bool, route: seq<Pos>, trace: seq<Step>)
    requires Shaped(field, height, width) && InBounds(start, height, width)
    ensures Shaped(result, height, width)
    ensures found <==> Reachable(field, start, goal)
    ensures found ==> Joins(field, start, goal, route)
    ensures found ==> forall w :: Joins(field, start, goal, w) ==> |route| <= |w|
    ensures !found ==> route == []
    ensures !found ==> forall p :: Reachable(field, start, p) ==> Expanded(p) in trace
    ensures TraceShape(Problem(field, height, width, start, goal), trace, route) && PathExpanded(trace, route)
    ensures forall p :: InBounds(p, height, width) ==> At(result, p) == Painted(field, trace, route, p)
    ensures forall p :: p in Interior(route) ==> p != start && p != goal
    ensures forall p :: InBounds(p, height, width) && p != start && At(field, p) == Wall ==> At(result, p) == Wall
    ensures start == goal ==> found && route == [start] && trace == []
  {
    var pb := Problem(field, height, width, start, goal);
    var s, expansions;
    s, expansions, found := Explore(pb);
    if found {
      result, route, trace := Finish(pb, s, expansions);
    } else {
      result, route, trace := s.field, [], expansions;
      ExpansionsShape(pb, s, expansions);
    }
    WallsSurvive(pb, trace, route);
  }

  /** Apart from the start cell, which the search enters whatever its role,
      no wall is expanded or lies on a route, so every wall survives the
      painting. */
  lemma WallsSurvive(pb: Problem, trace: seq<Step>, route: seq<Pos>)
    requires pb.WellFormed() && TraceShape(pb, trace, route)
    requires route == [] || Joins(pb.field, pb.start, pb.goal, route)
    ensures forall p :: InBounds(p, pb.height, pb.width) && p != pb.start && At(pb.field, p) == Wall ==>
              Painted(pb.field, trace, route, p) == Wall
  {
    ExpandedReachable(pb, trace, route);
    forall p | InBounds(p, pb.height, pb.width) && p != pb.start && At(pb.field, p) == Wall
      ensures Painted(pb.field, trace, route, p) == Wall
    {
      forall i | 0 <= i < |Interior(route)| ensures Interior(route)[i] != p {
        assert Interior(route)[i] == route[i + 1];
      }
      assert !Open(pb.field, pb.start, p);
    }
  }

  /** The trace of the search loop is made of expansions of open, non-goal
      cells reachable from the start. */
  lemma ExpansionsShape(pb: Problem, s: Search, expansions: seq<Step>)
    requires pb.WellFormed() && Marks(pb, s, expansions) && Scores(pb, s) && OpensAtStart(pb, expansions)
    ensures TraceShape(pb, expansions, [])
    ensures forall i :: 0 <= i < |expansions| ==>
              expansions[i].Expanded? && Open(pb.field, pb.start, expansions[i].pos)
  {
    forall i | 0 <= i < |expansions|
      ensures Open(pb.field, pb.start, expansions[i].pos) && Reachable(pb.field, pb.start, expansions[i].pos)
    {
      assert expansions[i].pos in s.g;
      ScoredReachable(pb, s, expansions[i].pos);
    }
  }

  /** Path marks laid over visit marks give the painted field; path marks
      appended to expansions do not change which cells count as expanded. */
  lemma PaintedAfterSearch(pb: Problem, s: Search, expansions: seq<Step>, marks: seq<Step>,
                           route: seq<Pos>, result: Field)
    requires pb.WellFormed() && Marks(pb, s, expansions) && TraceShape(pb, expansions, [])
    requires forall p :: p in Interior(route) ==> Expanded(p) in expansions
    requires |marks| == |Interior(route)|
    requires forall i :: 0 <= i < |marks| ==> marks[i] == PathMarked(Interior(route)[i])
    requires Shaped(result, pb.height, pb.width)
    requires forall p :: InBounds(p, pb.height, pb.width) ==>
               At(result, p) == if p in Interior(route) then Path else At(s.field, p)
    ensures TraceShape(pb, expansions + marks, route) && PathExpanded(expansions + marks, route)
    ensures forall p :: InBounds(p, pb.height, pb.width) ==>
              At(result, p) == Painted(pb.field, expansions + marks, route, p)
  {
    MarksAppended(pb, expansions, marks, route);
    var trace := expansions + marks;
    forall p | InBounds(p, pb.height, pb.width)
      ensures VisitMark(pb.field, trace, p) == VisitMark(pb.field, expansions, p)
    {
      assert Expanded(p) in trace <==> Expanded(p) in expansions by {
        if Expanded(p) in trace {
          var i :| 0 <= i < |trace| && trace[i] == Expanded(p);
          if i >= |expansions| {
            assert trace[i] == marks[i - |expansions|];
          }
        }
      }
    }
  }

  /** Appending the path marks of `route` to a trace of expansions gives a
      trace of the shape the route asks for. */
  lemma MarksAppended(pb: Problem, expansions: seq<Step>, marks: seq<Step>, route: seq<Pos>)
    requires TraceShape(pb, expansions, [])
    requires |marks| == |Interior(route)|
    requires forall i :: 0 <= i < |marks| ==> marks[i] == PathMarked(Interior(route)[i])
    requires forall p :: p in Interior(route) ==> Expanded(p) in expansions
    ensures TraceShape(pb, expansions + marks, route)
    ensures PathExpanded(expansions + marks, route)
  {
    var trace := expansions + marks;
    assert trace[..|expansions|] == expansions;
    assert forall i :: 0 <= i < |expansions| ==> trace[i] == expansions[i];
    assert forall i :: 0 <= i < |marks| ==> trace[|expansions| + i] == marks[i];
  }

  /** The outcome of the copy of `a_star_step_by_step` in src/main.rs. A
      panic still leaves behind the redraws of the search loop before it. */
  datatype Outcome = Finished(field: Field, route: seq<Pos>, trace: seq<Step>) | Panicked(trace: seq<Step>)

  /** `a_star_step_by_step` as copied into src/main.rs: the same search
      loop, but no found flag. The walk back starts with
      `came_from[&goal]` whatever happened, and a missing key panics. Every
      later lookup follows the predecessor chain and cannot fail, as the
      route reconstruction proves; so the run panics exactly when the goal
      cannot be reached. */
  method AStarUnchecked(field: Field, start: Pos, goal: Pos, height: nat, width: nat) returns (r: Outcome)
    requires Shaped(field, height, width) && InBounds(start, height, width)
    ensures r.Panicked? <==> !Reachable(field, start, goal)
    ensures r.Panicked? ==> && TraceShape(Problem(field, height, width, start, goal), r.trace, [])
                            && forall p :: Expanded(p) in r.trace <==> Reachable(field, start, p)
    ensures r.Finished? ==> && Shaped(r.field, height, width)
                            && Joins(field, start, goal, r.route)
                            && (forall w :: Joins(field, start, goal, w) ==> |r.route| <= |w|)
                            && TraceShape(Problem(field, height, width, start, goal), r.trace, r.route)
                            && PathExpanded(r.trace, r.route)
                            && forall p :: InBounds(p, height, width) ==> At(r.field, p) == Painted(field, r.trace, r.route, p)
  {
    var pb := Problem(field, height, width, start, goal);
    var s, expansions, found := Explore(pb);
    if goal != start && goal !in s.cameFrom {
      // `came_from[&current]` with `current == goal` has no entry
      ExpansionsShape(pb, s, expansions);
      ExpandedReachable(pb, expansions, []);
      return Panicked(expansions);
    }
    var result, route, trace := Finish(pb, s, expansions);
    r := Finished(result, route, trace);
  }
}

=== FILE: grid.dfy ===
/** The grid: a `height × width` array of cell roles indexed `(row, col)`,
    4-neighbourhoods in the search's fixed order, and walks through the
    cells the search may enter. */
module Grid {
  import opened Types

  type Field = seq<seq<CellType>>

  /** The field has `height` rows of `width` cells each. */
  predicate Shaped(f: Field, height: nat, width: nat) {
    |f| == height && forall r :: 0 <= r < height ==> |f[r]| == width
  }

  predicate InBounds(p: Pos, height: nat, width: nat) {
    p.row < height && p.col < width
  }

  /** `p` indexes a cell of `f`. */
  predicate Has(f: Field, p: Pos) {
    p.row < |f| && p.col < |f[p.row]|
  }

  function At(f: Field, p: Pos): CellType
    requires Has(f, p)
  {
    f[p.row][p.col]
  }

  /** The field with the role of the one cell `p` replaced by `t`. */
  function Put(f: Field, p: Pos, t: CellType): (f': Field)
    requires Has(f, p)
    ensures |f'| == |f| && forall r :: 0 <= r < |f| ==> |f'[r]| == |f[r]|
    ensures forall q :: Has(f', q) <==> Has(f, q)
    ensures At(f', p) == t
    ensures forall q :: Has(f, q) && q != p ==> At(f', q) == At(f, q)
  {
    f[p.row := f[p.row][p.col := t]]
  }

  /** The four cells sharing a side with `a`. */
  predicate Adjacent(a: Pos, b: Pos) {
    || (a.row == b.row && (a.col + 1 == b.col || b.col + 1 == a.col))
    || (a.col == b.col && (a.row + 1 == b.row || b.row + 1 == a.row))
  }

  /** The offsets `(dy, dx)` in the order the search tries them:
      east, west, south, north. */
  const Directions: seq<(int, int)> := [(0, 1), (0, -1), (1, 0), (-1, 0)]

  /** The neighbour of `p` in direction `d`, or `None` when the offset
      leaves the grid. */
  function Neighbour(p: Pos, d: nat, height: nat, width: nat): (r: Option<Pos>)
    requires d < |Directions|
    ensures r.Some? ==> Adjacent(p, r.value) && InBounds(r.value, height, width)
  {
    var ny := p.row + Directions[d].0;
    var nx := p.col + Directions[d].1;
    if ny < 0 || nx < 0 || ny >= height || nx >= width then None
    else Some(Pos(ny, nx))
  }

  /** The directions are tried east, west, south, north, and a direction is
      skipped exactly when it leads off the grid. */
  lemma NeighbourOrder(p: Pos, height: nat, width: nat)
    requires InBounds(p, height, width)
    ensures Neighbour(p, 0, height, width)
            == (if p.col + 1 < width then Some(Pos(p.row, p.col + 1)) else None)
    ensures Neighbour(p, 1, height, width)
            == (if p.col > 0 then Some(Pos(p.row, p.col - 1)) else None)
    ensures Neighbour(p, 2, height, width)
            == (if p.row + 1 < height then Some(Pos(p.row + 1, p.col)) else None)
    ensures Neighbour(p, 3, height, width)
            == (if p.row > 0 then Some(Pos(p.row - 1, p.col)) else None)
  {
  }

  /** Every in-bounds cell adjacent to `p` is reached by one of the four
      directions. */
  lemma NeighbourComplete(p: Pos, q: Pos, height: nat, width: nat)
    requires Adjacent(p, q) && InBounds(q, height, width)
    ensures exists d :: 0 <= d < |Directions| && Neighbour(p, d, height, width) == Some(q)
  {
    if q.row == p.row && q.col == p.col + 1 {
      assert Neighbour(p, 0, height, width) == Some(q);
    } else if q.row == p.row && q.col + 1 == p.col {
      assert Neighbour(p, 1, height, width) == Some(q);
    } else if q.col == p.col && q.row == p.row + 1 {
      assert Neighbour(p, 2, height, width) == Some(q);
    } else {
      assert Neighbour(p, 3, height, width) == Some(q);
    }
  }

  /** A cell the search may stand on: inside the grid and not a wall. The
      start cell is always open, since the search enqueues it without
      looking at its role. */
  predicate Open(f: Field, start: Pos, p: Pos) {
    Has(f, p) && (p == start || At(f, p) != Wall)
  }

  /** Consecutive cells of `w` share a side. */
  predicate Chain(w: seq<Pos>) {
    forall i :: 0 <= i < |w| - 1 ==> Adjacent(w[i], w[i + 1])
  }

  /** A walk from `a` back to `start` through open cells; its length in
      steps is `|w| - 1`. */
  predicate Joins(f: Field, start: Pos, a: Pos, w: seq<Pos>) {
    && |w| > 0
    && w[0] == a
    && w[|w| - 1] == start
    && Chain(w)
    && (forall i :: 0 <= i < |w| ==> Open(f, start, w[i]))
  }

  /** `a` is 4-connected to `start` through open cells. */
  ghost predicate Reachable(f: Field, start: Pos, a: Pos) {
    exists w :: Joins(f, start, a, w)
  }

  /** The cells of row `r`, left to right, up to column `width`. */
  function RowCells(r: nat, width: nat): (cs: seq<Pos>)
    ensures forall c: nat :: c < width ==> Pos(r, c) in cs
  {
    if width == 0 then [] else RowCells(r, width - 1) + [Pos(r, width - 1)]
  }

  /** All cells of a `height × width` grid. */
  function Cells(height: nat, width: nat): (cs: seq<Pos>)
    ensures forall p :: InBounds(p, height, width) ==> p in cs
  {
    if height == 0 then []
    else
      var cs := Cells(height - 1, width) + RowCells(height - 1, width);
      assert forall p :: InBounds(p, height, width) && p.row == height - 1 ==> p in RowCells(height - 1, width);
      cs
  }
}

=== FILE: heuristic.dfy ===
/** The Manhattan heuristic of the A* search and the facts that make it
    admissible and consistent on a 4-connected grid with unit steps. */
module Manhattan {
  import opened Types
  import opened Grid

  function Abs(x: int): nat {
    if x < 0 then -x else x
  }

  /** `heuristic(a, b)`: the row distance plus the column distance. */
  function Heuristic(a: Pos, b: Pos): nat {
    Abs(a.row - b.row) + Abs(a.col - b.col)
  }

  /** The heuristic is a metric: symmetric, and zero exactly on equal
      positions. */
  lemma HeuristicMetric(a: Pos, b: Pos)
    ensures Heuristic(a, b) == Heuristic(b, a)
    ensures Heuristic(a, b) == 0 <==> a == b
  {
  }

  /** Two cells are adjacent exactly when their heuristic distance is 1. */
  lemma AdjacentIsUnitDistance(a: Pos, b: Pos)
    ensures Adjacent(a, b) <==> Heuristic(a, b) == 1
  {
  }

  /** One step changes the estimate towards any target by exactly one, so
      the heuristic is consistent: h(p) <= 1 + h(q) for adjacent p, q. */
  lemma AdjacentStep(p: Pos, q: Pos, t: Pos)
    requires Adjacent(p, q)
    ensures Heuristic(p, t) == Heuristic(q, t) + 1 || Heuristic(q, t) == Heuristic(p, t) + 1
  {
  }

  /** Along a chain of adjacent cells the heuristic distance from the first
      cell grows by at most one per step: it never overestimates, so the
      heuristic is admissible. */
  lemma {:induction false} ChainBound(w: seq<Pos>, j: nat)
    requires Chain(w) && j < |w|
    ensures Heuristic(w[j], w[0]) <= j
    decreases j
  {
    if j > 0 {
      ChainBound(w, j - 1);
      AdjacentStep(w[j - 1], w[j], w[0]);
    }
  }
}

=== FILE: scenario.dfy ===
/** Two concrete runs: the 10 × 10 grid set up in src/visualizer.rs, and a
    1 × 3 grid whose goal is walled off, reached through the editing
    events of the session. */
module Scenario {
  import opened Types
  import opened Grid
  import opened Manhattan
  import opened SearchState
  import opened AStar
  import opened Session

  /** The grid of src/visualizer.rs: start (2, 0), goal (9, 9), walls at
      (2, 2), (2, 3) and (1, 2). The pairs are read as (row, column), the
      way `a_star_step_by_step` indexes the field. src/visualizer.rs:45
      draws `field[x][y]`, so on screen the first index is the column;
      the transposed grid also has a start-goal distance of 16 and a
      monotone wall-free walk, so the length of the route is the same. */
  function VisualizerField(): (f: Field)
    ensures Shaped(f, 10, 10)
  {
    var f := EmptyField(10, 10);
    var f := Put(f, Pos(2, 0), Start);
    var f := Put(f, Pos(9, 9), Goal);
    var f := Put(f, Pos(2, 2), Wall);
    var f := Put(f, Pos(2, 3), Wall);
    Put(f, Pos(1, 2), Wall)
  }

  /** The only walls of the visualizer grid are the three placed ones. */
  lemma VisualizerWalls(p: Pos)
    requires InBounds(p, 10, 10)
    ensures At(VisualizerField(), p) == Wall <==> p in {Pos(2, 2), Pos(2, 3), Pos(1, 2)}
  {
  }

  /** Along the bottom row from the goal, then up the first column to the
      start: 16 steps, none through a wall. */
  function Detour(): (w: seq<Pos>)
    ensures |w| == 17
  {
    seq(17, i requires 0 <= i < 17 => if i <= 9 then Pos(9, 9 - i) else Pos(9 - (i - 9), 0))
  }

  lemma DetourJoins()
    ensures Joins(VisualizerField(), Pos(2, 0), Pos(9, 9), Detour())
  {
    var w := Detour();
    forall i | 0 <= i < |w| ensures Open(VisualizerField(), Pos(2, 0), w[i]) {
      VisualizerWalls(w[i]);
    }
  }

  /** No walk between two cells is shorter than their Manhattan distance. */
  lemma WalkAtLeastDistance(f: Field, start: Pos, a: Pos, w: seq<Pos>)
    requires Joins(f, start, a, w)
    ensures Heuristic(start, a) <= |w| - 1
  {
    ChainBound(w, |w| - 1);
  }

  /** The visualizer grid holds no path cell before a run. */
  lemma VisualizerUnpainted(p: Pos)
    requires InBounds(p, 10, 10)
    ensures At(VisualizerField(), p) != Path
  {
  }

  /** Since the visualizer grid holds no path cell before a run, the
      painted path cells are exactly the route's interior. */
  lemma VisualizerPathCells(result: Field, trace: seq<Step>, route: seq<Pos>)
    requires Shaped(result, 10, 10)
    requires forall p :: InBounds(p, 10, 10) ==> At(result, p) == Painted(VisualizerField(), trace, route, p)
    ensures forall p :: InBounds(p, 10, 10) ==> (At(result, p) == Path <==> p in Interior(route))
  {
    forall p | InBounds(p, 10, 10) ensures At(result, p) == Path <==> p in Interior(route) {
      VisualizerUnpainted(p);
    }
  }

  /** On the visualizer grid the search finds a route of 16 steps, the
      Manhattan distance between start and goal, through open neighbouring
      cells, and paints exactly its 15 inner cells as path. */
  method VisualizerRun() returns (result: Field, found: bool, route: seq<Pos>, trace: seq<Step>)
    ensures found && |route| == 17 && |Interior(route)| == 15
    ensures route[0] == Pos(9, 9) && route[16] == Pos(2, 0) && Chain(route)
    ensures Joins(VisualizerField(), Pos(2, 0), Pos(9, 9), route)
    ensures Shaped(result, 10, 10)
    ensures forall p :: InBounds(p, 10, 10) ==> (At(result, p) == Path <==> p in Interior(route))
  {
    DetourJoins();
    result, found, route, trace := RunJoined(VisualizerField(), Pos(2, 0), Pos(9, 9), Detour());
    WalkAtLeastDistance(VisualizerField(), Pos(2, 0), Pos(9, 9), route);
    VisualizerPathCells(result, trace, route);
  }

  /** On a 10 × 10 grid where the walk `w` joins the goal to the start,
      the search finds a route no longer than `w`, painted as the search
      promises. */
  method RunJoined(f: Field, start: Pos, goal: Pos, w: seq<Pos>)
    returns (result: Field, found: bool, route: seq<Pos>, trace: seq<Step>)
    requires Shaped(f, 10, 10) && InBounds(start, 10, 10) && Joins(f, start, goal, w)
    ensures found && Joins(f, start, goal, route) && |route| <= |w|
    ensures Shaped(result, 10, 10)
    ensures forall p :: InBounds(p, 10, 10) ==> At(result, p) == Painted(f, trace, route, p)
  {
    assert Reachable(f, start, goal);
    result, found, route, trace := AStarStepByStep(f, start, goal, 10, 10);
  }

  // ----- A goal behind a wall -----

  /** In a single row of three cells with a wall in the middle, no open
      cell lies next to the right end. */
  lemma BlockedNext(f: Field, q: Pos)
    requires Shaped(f, 1, 3) && At(f, Pos(0, 1)) == Wall && Adjacent(Pos(0, 2), q)
    ensures !Open(f, Pos(0, 0), q)
  {
  }

  /** So the left end cannot reach the right end: a walk from the right end
      would have to step onto an open neighbour first. */
  lemma WalledOff(f: Field)
    requires Shaped(f, 1, 3) && At(f, Pos(0, 1)) == Wall
    ensures !Reachable(f, Pos(0, 0), Pos(0, 2))
  {
    forall w | Joins(f, Pos(0, 0), Pos(0, 2), w) ensures |w| < 2 || !Open(f, Pos(0, 0), w[1]) {
      if |w| >= 2 {
        BlockedNext(f, w[1]);
      }
    }
  }

  /** Edits a 1 × 3 grid: start at the left, goal at the right, a wall in
      the middle, then Space. The gate only checks that both endpoints were
      recorded, so the run is requested. */
  method WalledOffEdits() returns (s: Session)
    ensures Valid(s) && s.height == 1 && s.width == 3
    ensures s.shouldRun && s.startPos == Some(Pos(0, 0)) && s.goalPos == Some(Pos(0, 2))
    ensures At(s.field, Pos(0, 1)) == Wall
  {
    s := Startup(1, 3);
    s := ClickIn(s, KeyS, 0, 0);
    s := ClickIn(s, KeyG, 2, 0);
    assert At(s.field, Pos(0, 1)) == Empty;
    s := ClickIn(s, KeyW, 1, 0);
    s := Edit(s, KeyboardInput(Some(Space), true));
  }

  /** A mode key, a cursor move onto cell `(x, y)`, and a press, while
      editing. */
  method ClickIn(s: Session, k: Key, x: nat, y: nat) returns (s': Session)
    requires Valid(s) && s.placingWalls && InBounds(Pos(y, x), s.height, s.width)
    requires k == KeyW || k == KeyS || k == KeyG
    ensures Valid(s') && s'.placingWalls && s'.height == s.height && s'.width == s.width
    ensures k == KeyW ==> s'.startPos == s.startPos && s'.goalPos == s.goalPos
                          && At(s'.field, Pos(y, x)) == (if At(s.field, Pos(y, x)) == Empty then Wall
                                                         else if At(s.field, Pos(y, x)) == Wall then Empty
                                                         else At(s.field, Pos(y, x)))
    ensures k == KeyS && At(s.field, Pos(y, x)) == Empty ==> s'.startPos == Some(Pos(y, x)) && s'.goalPos == s.goalPos
    ensures k == KeyG && At(s.field, Pos(y, x)) == Empty ==> s'.goalPos == Some(Pos(y, x)) && s'.startPos == s.startPos
    ensures k != KeyW ==> forall q :: InBounds(q, s.height, s.width) && q != Pos(y, x) && At(s.field, q) == Empty ==>
                                        At(s'.field, q) == Empty
  {
    var s1 := Edit(s, KeyboardInput(Some(k), true));
    var s2 := Edit(s1, CursorMoved(x, y));
    PressEffect(s2);
    s' := Edit(s2, MouseInput(true));
  }

  /** One editing event, as the event loop handles it. */
  method Edit(s: Session, e: Event) returns (s': Session)
    requires Valid(s) && !e.MainEventsCleared?
    ensures s' == React(s, e).0 && Valid(s') && s'.height == s.height && s'.width == s.width
  {
    ReactValid(s, e);
    s' := React(s, e).0;
  }

  /** The run the gate let through: the copy of the search in src/main.rs
      panics on it, while the search with the found flag reports no path. */
  method WalledOffRun() returns (asWritten: Outcome, found: bool)
    ensures asWritten.Panicked? && !found
    ensures Expanded(Pos(0, 0)) in asWritten.trace && Expanded(Pos(0, 2)) !in asWritten.trace
  {
    var s := WalledOffEdits();
    WalledOff(s.field);
    assert Joins(s.field, Pos(0, 0), Pos(0, 0), [Pos(0, 0)]);
    asWritten := AStarUnchecked(s.field, Pos(0, 0), Pos(0, 2), 1, 3);
    var _, reached, _, _ := AStarStepByStep(s.field, Pos(0, 0), Pos(0, 2), 1, 3);
    found := reached;
  }
}

=== FILE: search.dfy ===
/** The state of one A* run and the facts the search loop keeps about it.
    The binary heap of src/astar.rs becomes a multiset of nodes, the score
    table a map whose missing keys stand for the `usize::MAX` "unreached"
    entry, and `came_from` a map from a cell to its predecessor. */
module SearchState {
  import opened Types
  import opened Grid
  import opened Manhattan

  /** The arguments of one search: the field as it was when the search
      began, its dimensions, and the two endpoints. */
  datatype Problem = Problem(field: Field, height: nat, width: nat, start: Pos, goal: Pos) {
    predicate WellFormed() {
      Shaped(field, height, width) && InBounds(start, height, width)
    }
  }

  /** The working state: the field being marked, best known path costs
      `g`, predecessors, and the open queue. */
  datatype Search = Search(field: Field, g: map<Pos, nat>, cameFrom: map<Pos, Pos>, queue: multiset<State>)

  /** One observable step: a popped cell (redrawn after it is marked
      visited), or a cell marked as part of the path. */
  datatype Step = Expanded(pos: Pos) | PathMarked(pos: Pos)

  /** Only the start is scored, and only its node is queued. */
  function Initial(pb: Problem): (s: Search)
    ensures s.g.Keys == {pb.start} && s.g[pb.start] == 0 && s.cameFrom == map[]
    ensures s.queue == multiset{State(pb.start, Heuristic(pb.start, pb.goal))}
  {
    Search(pb.field, map[pb.start := 0], map[], multiset{State(pb.start, Heuristic(pb.start, pb.goal))})
  }

  /** `e` is a node the heap may pop: none orders strictly before it. Which
      of several such nodes is popped is left to the container. */
  predicate IsMinimal(e: State, queue: multiset<State>) {
    e in queue && forall x :: x in queue ==> Compare(e, x) != Greater
  }

  /** A non-empty queue always has a node the heap may pop. */
  lemma {:induction false} MinimumExists(queue: multiset<State>)
    requires queue != multiset{}
    ensures exists e :: IsMinimal(e, queue)
    decreases |queue|
  {
    var x :| x in queue;
    var rest := queue - multiset{x};
    if rest == multiset{} {
      forall y | y in queue ensures Compare(x, y) != Greater {
        assert y == x by {
          assert rest[y] == 0;
        }
      }
      assert IsMinimal(x, queue);
    } else {
      assert |rest| < |queue| by {
        assert queue == rest + multiset{x};
      }
      MinimumExists(rest);
      var m :| IsMinimal(m, rest);
      var best := if x.priority <= m.priority then x else m;
      forall y | y in queue ensures Compare(best, y) != Greater {
        if y != x {
          assert rest[y] == queue[y];
        }
      }
      assert IsMinimal(best, queue);
    }
  }

  /** Marks a popped cell visited unless its role is `Start` or `Goal`. */
  function MarkVisited(s: Search, p: Pos): (s': Search)
    requires Has(s.field, p)
    ensures s'.g == s.g && s'.cameFrom == s.cameFrom && s'.queue == s.queue
    ensures |s'.field| == |s.field| && forall r :: 0 <= r < |s.field| ==> |s'.field[r]| == |s.field[r]|
    ensures At(s'.field, p) == (if At(s.field, p) in {Start, Goal} then At(s.field, p) else Visited)
    ensures forall q :: Has(s.field, q) && q != p ==> At(s'.field, q) == At(s.field, q)
  {
    if At(s.field, p) != Start && At(s.field, p) != Goal then s.(field := Put(s.field, p, Visited))
    else s
  }

  /** Relaxes the edge from the expanded cell `p` to its neighbour `q`:
      when going through `p` is strictly cheaper than the best known cost
      of `q`, record it and push `q` again. Older nodes of `q` stay in the
      queue. */
  function Relax(s: Search, goal: Pos, p: Pos, q: Pos): (s': Search)
    requires p in s.g
    ensures s'.field == s.field
    ensures q in s'.g && s'.g[q] <= s.g[p] + 1
    ensures s'.g.Keys == s.g.Keys + {q}
    ensures forall r :: r in s.g ==> s'.g[r] <= s.g[r]
    ensures forall r :: r in s.g && r != q ==> s'.g[r] == s.g[r]
    ensures s' != s <==> q !in s.g || s.g[p] + 1 < s.g[q]
    ensures s' != s ==> && s'.g[q] == s.g[p] + 1
                        && s'.cameFrom == s.cameFrom[q := p]
                        && s'.queue == s.queue + multiset{State(q, s'.g[q] + Heuristic(q, goal))}
  {
    var tentative := s.g[p] + 1;
    if q !in s.g || tentative < s.g[q] then
      s.(g := s.g[q := tentative],
         cameFrom := s.cameFrom[q := p],
         queue := s.queue + multiset{State(q, tentative + Heuristic(q, goal))})
    else s
  }

  /** Handles direction `d` of the expanded cell `p`: skip it when it
      leaves the grid or hits a wall, relax it otherwise. */
  function Scan(pb: Problem, s: Search, p: Pos, d: nat): Search
    requires d < |Directions| && p in s.g && Shaped(s.field, pb.height, pb.width)
  {
    match Neighbour(p, d, pb.height, pb.width)
    case None => s
    case Some(q) => if At(s.field, q) == Wall then s else Relax(s, pb.goal, p, q)
  }

  // ----- What the search loop keeps true -----

  /** The start costs 0; every scored cell is open; every scored cell other
      than the start has a predecessor, which is scored, adjacent and
      strictly cheaper. */
  ghost predicate Scores(pb: Problem, s: Search) {
    && pb.start in s.g && s.g[pb.start] == 0
    && (forall p :: p in s.g ==> Open(pb.field, pb.start, p))
    && (forall p :: p in s.g && p != pb.start ==> p in s.cameFrom)
    && (forall p {:trigger s.cameFrom[p]} :: p in s.cameFrom ==>
          && p in s.g && s.cameFrom[p] in s.g
          && Adjacent(s.cameFrom[p], p) && s.g[s.cameFrom[p]] < s.g[p])
  }

  /** Every queued node is scored, and its priority is no lower than the
      current cost plus the estimate: stale nodes only overstate. */
  ghost predicate Entries(pb: Problem, s: Search) {
    forall e :: e in s.queue ==>
      e.position in s.g && e.priority >= s.g[e.position] + Heuristic(e.position, pb.goal)
  }

  /** `p` has a node in the queue carrying its current cost. */
  ghost predicate Fresh(pb: Problem, s: Search, p: Pos)
    requires p in s.g
  {
    State(p, s.g[p] + Heuristic(p, pb.goal)) in s.queue
  }

  /** Every open neighbour of `p` is scored at most one more than `p`. */
  ghost predicate Relaxed(pb: Problem, g: map<Pos, nat>, p: Pos)
    requires p in g
  {
    forall q :: Adjacent(p, q) && Open(pb.field, pb.start, q) ==> q in g && g[q] <= g[p] + 1
  }

  /** Every scored cell is either waiting in the queue with its current
      cost, or has been expanded at that cost (which the goal never is). */
  ghost predicate Frontier(pb: Problem, s: Search) {
    forall p :: p in s.g ==> Fresh(pb, s, p) || (p != pb.goal && Relaxed(pb, s.g, p))
  }

  /** `Frontier` with the cell `x`, which is being expanded, exempt. */
  ghost predicate FrontierExcept(pb: Problem, s: Search, x: Pos) {
    forall p :: p in s.g ==> p == x || Fresh(pb, s, p) || (p != pb.goal && Relaxed(pb, s.g, p))
  }

  /** The role a cell has after the cells of `trace` were popped: visited,
      unless its role was `Start` or `Goal`. */
  function VisitMark(f0: Field, trace: seq<Step>, p: Pos): CellType
    requires Has(f0, p)
  {
    if Expanded(p) in trace && At(f0, p) != Start && At(f0, p) != Goal then Visited else At(f0, p)
  }

  /** The field differs from the original only by visit marks, and the
      trace lists expansions of scored cells other than the goal. */
  ghost predicate Marks(pb: Problem, s: Search, trace: seq<Step>)
    requires pb.WellFormed()
  {
    && Shaped(s.field, pb.height, pb.width)
    && (forall i :: 0 <= i < |trace| ==>
          trace[i].Expanded? && trace[i].pos in s.g && trace[i].pos != pb.goal)
    && (forall p :: InBounds(p, pb.height, pb.width) ==> At(s.field, p) == VisitMark(pb.field, trace, p))
  }

  /** Every predecessor recorded in `after` is `p`, or was already
      recorded for the same cell in `before`: expanding `p` only ever
      records `p` as a predecessor. */
  predicate ParentsFrom(before: map<Pos, Pos>, after: map<Pos, Pos>, p: Pos) {
    forall q :: q in after ==> after[q] == p || (q in before && after[q] == before[q])
  }

  /** Every recorded predecessor is a cell the trace expanded. */
  ghost predicate ParentsExpanded(s: Search, trace: seq<Step>) {
    forall q :: q in s.cameFrom ==> Expanded(s.cameFrom[q]) in trace
  }

  /** Every scored cell is still queued at its current cost, or the trace
      expanded it: a cell leaves the queue only by being popped. */
  ghost predicate QueuedOrExpanded(pb: Problem, s: Search, trace: seq<Step>) {
    forall p :: p in s.g ==> Fresh(pb, s, p) || Expanded(p) in trace
  }

  /** From `s0` to `s` the queue only grew, and every score that was set
      or lowered came with a node carrying it. */
  ghost predicate Requeued(pb: Problem, s0: Search, s: Search) {
    && s0.queue <= s.queue
    && forall r :: r in s.g ==> Fresh(pb, s, r) || (r in s0.g && s.g[r] == s0.g[r])
  }

  /** Apart from the start cell, the field has a wall exactly where the
      original had one. */
  ghost predicate WallsKept(pb: Problem, f: Field)
    requires pb.WellFormed() && Shaped(f, pb.height, pb.width)
  {
    forall q :: InBounds(q, pb.height, pb.width) && q != pb.start ==> (At(f, q) == Wall <==> At(pb.field, q) == Wall)
  }

  /** Everything the search loop keeps between two pops. */
  ghost predicate Inv(pb: Problem, s: Search, trace: seq<Step>) {
    && pb.WellFormed()
    && Marks(pb, s, trace)
    && Scores(pb, s)
    && Entries(pb, s)
    && Frontier(pb, s)
  }

  // ----- Termination measure -----

  /** The number of cells of `cs` that have no score yet. */
  function Unscored(cs: seq<Pos>, g: map<Pos, nat>): nat {
    if cs == [] then 0 else (if cs[0] in g then 0 else 1) + Unscored(cs[1..], g)
  }

  /** The number of grid cells that have no score yet. */
  function Unreached(pb: Problem, g: map<Pos, nat>): nat {
    Unscored(Cells(pb.height, pb.width), g)
  }

  /** The sum of the scores over the cells `cs`. */
  function Potential(cs: seq<Pos>, g: map<Pos, nat>): nat {
    if cs == [] then 0 else (if cs[0] in g then g[cs[0]] else 0) + Potential(cs[1..], g)
  }

  /** Lowering one score never raises the sum. */
  lemma {:induction false} PotentialNoRise(cs: seq<Pos>, g: map<Pos, nat>, q: Pos, v: nat)
    requires q in g && v <= g[q]
    ensures Potential(cs, g[q := v]) <= Potential(cs, g)
    decreases |cs|
  {
    if cs != [] {
      PotentialNoRise(cs[1..], g, q, v);
    }
  }

  /** Lowering the score of a listed cell strictly lowers the sum. */
  lemma {:induction false} PotentialDrop(cs: seq<Pos>, g: map<Pos, nat>, q: Pos, v: nat)
    requires q in g && v < g[q] && q in cs
    ensures Potential(cs, g[q := v]) < Potential(cs, g)
    decreases |cs|
  {
    if cs[0] == q {
      PotentialNoRise(cs[1..], g, q, v);
    } else {
      assert q in cs[1..];
      PotentialDrop(cs[1..], g, q, v);
    }
  }

  /** Scoring more cells never raises the count of unscored ones. */
  lemma {:induction false} UnscoredNoRise(cs: seq<Pos>, g: map<Pos, nat>, g': map<Pos, nat>)
    requires g.Keys <= g'.Keys
    ensures Unscored(cs, g') <= Unscored(cs, g)
    decreases |cs|
  {
    if cs != [] {
      UnscoredNoRise(cs[1..], g, g');
    }
  }

  /** Scoring a listed cell that had no score lowers the count strictly. */
  lemma {:induction false} UnscoredDrop(cs: seq<Pos>, g: map<Pos, nat>, g': map<Pos, nat>, q: Pos)
    requires g.Keys <= g'.Keys && q in cs && q in g' && q !in g
    ensures Unscored(cs, g') < Unscored(cs, g)
    decreases |cs|
  {
    if cs[0] == q {
      UnscoredNoRise(cs[1..], g, g');
    } else {
      assert q in cs[1..];
      UnscoredDrop(cs[1..], g, g', q);
    }
  }
}

=== FILE: search_proofs.dfy ===
/** Why the search loop keeps its invariant, why it stops, and what its
    two ways of stopping mean: popping the goal yields a cheapest route,
    running out of nodes means the goal is unreachable. */
module SearchProofs {
  import opened Types
  import opened Grid
  import opened Manhattan
  import opened SearchState

  // ----- Starting -----

  /** The initial state satisfies the loop invariant with an empty trace. */
  lemma InitialInv(pb: Problem)
    requires pb.WellFormed()
    ensures Inv(pb, Initial(pb), [])
  {
    var s := Initial(pb);
    assert Has(pb.field, pb.start);
    assert Fresh(pb, s, pb.start);
  }

  // ----- Popping a node other than the goal -----

  /** With the field marked as the trace says, walls other than the start
      are where they were. */
  lemma MarksKeepWalls(pb: Problem, s: Search, trace: seq<Step>)
    requires pb.WellFormed() && Marks(pb, s, trace) && Scores(pb, s)
    ensures WallsKept(pb, s.field)
  {
    forall q | InBounds(q, pb.height, pb.width) && q != pb.start
      ensures At(s.field, q) == Wall <==> At(pb.field, q) == Wall
    {
      if Expanded(q) in trace {
        var i :| 0 <= i < |trace| && trace[i] == Expanded(q);
        assert q in s.g;
        assert Open(pb.field, pb.start, q);
      }
    }
  }

  /** Marking the popped cell `p` visited matches the trace extended by
      its expansion. */
  lemma PopMarks(pb: Problem, s: Search, trace: seq<Step>, p: Pos, s': Search)
    requires pb.WellFormed() && Marks(pb, s, trace)
    requires p in s.g && p != pb.goal && Has(s.field, p)
    requires s' == MarkVisited(s, p)
    ensures Marks(pb, s', trace + [Expanded(p)])
  {
    var trace' := trace + [Expanded(p)];
    forall q | InBounds(q, pb.height, pb.width)
      ensures At(s'.field, q) == VisitMark(pb.field, trace', q)
    {
      if q != p {
        assert Expanded(q) in trace' <==> Expanded(q) in trace;
      } else {
        assert Expanded(p) in trace';
      }
    }
  }

  /** Removing one node of `p` from the queue keeps the frontier property
      of every other cell. */
  lemma PopFrontier(pb: Problem, s: Search, e: State, s': Search)
    requires Frontier(pb, s)
    requires s'.g == s.g && s'.queue == s.queue - multiset{e}
    ensures FrontierExcept(pb, s', e.position)
  {
    forall r | r in s'.g
      ensures r == e.position || Fresh(pb, s', r) || (r != pb.goal && Relaxed(pb, s'.g, r))
    {
      if r != e.position {
        assert Fresh(pb, s, r) || (r != pb.goal && Relaxed(pb, s.g, r));
        if Fresh(pb, s, r) {
          var x := State(r, s.g[r] + Heuristic(r, pb.goal));
          assert x != e && s'.queue[x] == s.queue[x];
        }
      }
    }
  }

  /** Removing the popped node `e` and marking its cell visited keeps
      everything but the frontier property of that cell, which its
      expansion is about to restore. */
  lemma PopKeeps(pb: Problem, s: Search, trace: seq<Step>, e: State, s': Search)
    requires Inv(pb, s, trace)
    requires e in s.queue && e.position != pb.goal
    requires Has(s.field, e.position)
    requires s' == MarkVisited(s.(queue := s.queue - multiset{e}), e.position)
    ensures Marks(pb, s', trace + [Expanded(e.position)])
    ensures Scores(pb, s') && Entries(pb, s') && FrontierExcept(pb, s', e.position)
    ensures WallsKept(pb, s'.field)
    ensures e.position in s'.g
  {
    var s1 := s.(queue := s.queue - multiset{e});
    assert Marks(pb, s1, trace);
    PopMarks(pb, s1, trace, e.position, s');
    PopFrontier(pb, s, e, s');
    MarksKeepWalls(pb, s', trace + [Expanded(e.position)]);
  }

  // ----- Expanding the popped cell -----

  /** Direction `k` of `p` leads to no open cell, or to one scored at most
      one more than `p`. */
  ghost predicate DirectionRelaxed(pb: Problem, g: map<Pos, nat>, p: Pos, k: nat)
    requires k < |Directions| && p in g
  {
    match Neighbour(p, k, pb.height, pb.width)
    case None => true
    case Some(q) => Open(pb.field, pb.start, q) ==> q in g && g[q] <= g[p] + 1
  }

  /** Scores only fall; the queue only grows; and when it grew, a new cell
      was scored or the sum of the scores fell. */
  ghost predicate Progress(pb: Problem, s0: Search, s: Search) {
    && s0.g.Keys <= s.g.Keys
    && (forall r :: r in s0.g ==> s.g[r] <= s0.g[r])
    && |s0.queue| <= |s.queue|
    && (|s.queue| == |s0.queue| ==> s.g == s0.g)
    && (|s.queue| > |s0.queue| ==>
          s.g.Keys != s0.g.Keys
          || Potential(Cells(pb.height, pb.width), s.g) < Potential(Cells(pb.height, pb.width), s0.g))
  }

  /** What holds after directions `0 .. d-1` of the expanded cell `p` were
      handled, starting from `s0`. */
  ghost predicate ExpandInv(pb: Problem, s0: Search, s: Search, p: Pos, d: nat)
    requires pb.WellFormed()
  {
    && d <= |Directions|
    && Shaped(s.field, pb.height, pb.width) && s.field == s0.field && WallsKept(pb, s.field)
    && Scores(pb, s) && Entries(pb, s) && FrontierExcept(pb, s, p)
    && p in s0.g && p in s.g && s.g[p] == s0.g[p] && p != pb.goal
    && (forall k :: 0 <= k < d ==> DirectionRelaxed(pb, s.g, p, k))
    && Progress(pb, s0, s)
  }

  /** Before any direction is handled. */
  lemma ExpandStart(pb: Problem, s: Search, p: Pos)
    requires pb.WellFormed() && Shaped(s.field, pb.height, pb.width) && WallsKept(pb, s.field)
    requires Scores(pb, s) && Entries(pb, s) && FrontierExcept(pb, s, p)
    requires p in s.g && p != pb.goal
    ensures ExpandInv(pb, s, s, p, 0)
  {
  }

  /** Handling direction `d` keeps the expansion invariant and relaxes
      that direction. */
  lemma ScanKeeps(pb: Problem, s0: Search, s: Search, p: Pos, d: nat)
    requires pb.WellFormed() && d < |Directions| && ExpandInv(pb, s0, s, p, d)
    ensures ExpandInv(pb, s0, Scan(pb, s, p, d), p, d + 1)
  {
    match Neighbour(p, d, pb.height, pb.width)
    case None =>
      assert Scan(pb, s, p, d) == s;
      ExpandNext(pb, s0, s, p, d);
    case Some(q) =>
      if At(s.field, q) == Wall {
        assert Scan(pb, s, p, d) == s;
        WallSkipped(pb, s0, s, p, d, q);
        ExpandNext(pb, s0, s, p, d);
      } else {
        assert Scan(pb, s, p, d) == Relax(s, pb.goal, p, q);
        RelaxKeeps(pb, s0, s, p, d, q);
      }
  }

  /** A wall met in direction `d` is either the start, which is scored at
      0, or no open cell at all. */
  lemma WallSkipped(pb: Problem, s0: Search, s: Search, p: Pos, d: nat, q: Pos)
    requires pb.WellFormed() && d < |Directions| && ExpandInv(pb, s0, s, p, d)
    requires Neighbour(p, d, pb.height, pb.width) == Some(q) && At(s.field, q) == Wall
    ensures DirectionRelaxed(pb, s.g, p, d)
  {
    assert q == pb.start || !Open(pb.field, pb.start, q);
  }

  /** A direction already relaxed extends the invariant by one. */
  lemma ExpandNext(pb: Problem, s0: Search, s: Search, p: Pos, d: nat)
    requires pb.WellFormed() && d < |Directions| && ExpandInv(pb, s0, s, p, d)
    requires DirectionRelaxed(pb, s.g, p, d)
    ensures ExpandInv(pb, s0, s, p, d + 1)
  {
  }

  /** Relaxing an open neighbour keeps the expansion invariant. */
  lemma RelaxKeeps(pb: Problem, s0: Search, s: Search, p: Pos, d: nat, q: Pos)
    requires pb.WellFormed() && d < |Directions| && ExpandInv(pb, s0, s, p, d)
    requires Neighbour(p, d, pb.height, pb.width) == Some(q) && At(s.field, q) != Wall
    ensures ExpandInv(pb, s0, Relax(s, pb.goal, p, q), p, d + 1)
  {
    if Relax(s, pb.goal, p, q) == s {
      RelaxIdle(pb, s0, s, p, d, q);
    } else {
      RelaxFired(pb, s0, s, p, d, q);
    }
  }

  /** A relaxation that changes nothing: the neighbour already costs at
      most one more than `p`. */
  lemma RelaxIdle(pb: Problem, s0: Search, s: Search, p: Pos, d: nat, q: Pos)
    requires pb.WellFormed() && d < |Directions| && ExpandInv(pb, s0, s, p, d)
    requires Neighbour(p, d, pb.height, pb.width) == Some(q)
    requires Relax(s, pb.goal, p, q) == s
    ensures ExpandInv(pb, s0, s, p, d + 1)
  {
    assert q in s.g && s.g[q] <= s.g[p] + 1;
    assert DirectionRelaxed(pb, s.g, p, d);
  }

  /** A relaxation that records `p` as the neighbour's new predecessor. */
  lemma RelaxFired(pb: Problem, s0: Search, s: Search, p: Pos, d: nat, q: Pos)
    requires pb.WellFormed() && d < |Directions| && ExpandInv(pb, s0, s, p, d)
    requires Neighbour(p, d, pb.height, pb.width) == Some(q) && At(s.field, q) != Wall
    requires Relax(s, pb.goal, p, q) != s
    ensures ExpandInv(pb, s0, Relax(s, pb.goal, p, q), p, d + 1)
  {
    var s' := Relax(s, pb.goal, p, q);
    FiredTarget(pb, s0, s, p, d, q);
    RelaxEntries(pb, s, p, q);
    RelaxFrontier(pb, s, p, q);
    RelaxDirections(pb, s, p, q, d);
    assert DirectionRelaxed(pb, s'.g, p, d);
    RelaxScores(pb, s, p, q);
    RelaxProgress(pb, s0, s, p, q);
    assert s'.field == s0.field && p in s'.g && s'.g[p] == s0.g[p];
  }

  /** The neighbour a relaxation fires on is open and is not the start,
      whose cost 0 cannot be lowered. */
  lemma FiredTarget(pb: Problem, s0: Search, s: Search, p: Pos, d: nat, q: Pos)
    requires pb.WellFormed() && d < |Directions| && ExpandInv(pb, s0, s, p, d)
    requires Neighbour(p, d, pb.height, pb.width) == Some(q) && At(s.field, q) != Wall
    requires Relax(s, pb.goal, p, q) != s
    ensures Adjacent(p, q) && q != pb.start && Open(pb.field, pb.start, q)
  {
    assert q != pb.start ==> Open(pb.field, pb.start, q);
  }

  /** A relaxation that fires through `p` to an open, non-start `q`
      keeps the facts about scores and predecessors. */
  lemma RelaxScores(pb: Problem, s: Search, p: Pos, q: Pos)
    requires pb.WellFormed() && Scores(pb, s) && p in s.g
    requires Adjacent(p, q) && Open(pb.field, pb.start, q) && q != pb.start
    requires Relax(s, pb.goal, p, q) != s
    ensures Scores(pb, Relax(s, pb.goal, p, q))
  {
    var s' := Relax(s, pb.goal, p, q);
    forall r | r in s'.cameFrom
      ensures && r in s'.g && s'.cameFrom[r] in s'.g
              && Adjacent(s'.cameFrom[r], r) && s'.g[s'.cameFrom[r]] < s'.g[r]
    {
      if r != q {
        assert s'.cameFrom[r] == s.cameFrom[r];
      }
    }
  }

  /** A relaxation keeps every queued priority an overestimate, and the new
      node carries the exact cost. */
  lemma RelaxEntries(pb: Problem, s: Search, p: Pos, q: Pos)
    requires Entries(pb, s) && p in s.g
    ensures Entries(pb, Relax(s, pb.goal, p, q))
  {
  }

  /** A relaxation keeps the frontier property of every cell but the one
      being expanded: the improved cell gets a fresh node, and every other
      cell keeps its node or its relaxed neighbourhood. */
  lemma RelaxFrontier(pb: Problem, s: Search, p: Pos, q: Pos)
    requires FrontierExcept(pb, s, p) && p in s.g
    ensures FrontierExcept(pb, Relax(s, pb.goal, p, q), p)
  {
    var s' := Relax(s, pb.goal, p, q);
    if s' != s {
      forall r | r in s'.g
        ensures r == p || Fresh(pb, s', r) || (r != pb.goal && Relaxed(pb, s'.g, r))
      {
        if r == q {
          assert Fresh(pb, s', r);
        } else if r != p {
          if Fresh(pb, s, r) {
            assert Fresh(pb, s', r);
          } else {
            assert Relaxed(pb, s'.g, r);
          }
        }
      }
    }
  }

  /** A relaxation that fires adds a node and either scores a new cell or
      lowers the sum of the scores. */
  lemma RelaxProgress(pb: Problem, s0: Search, s: Search, p: Pos, q: Pos)
    requires Progress(pb, s0, s) && p in s.g && InBounds(q, pb.height, pb.width)
    requires Relax(s, pb.goal, p, q) != s
    ensures Progress(pb, s0, Relax(s, pb.goal, p, q))
  {
    var s' := Relax(s, pb.goal, p, q);
    if q in s.g && s.g.Keys == s0.g.Keys {
      assert s'.g == s.g[q := s.g[p] + 1];
      assert q in Cells(pb.height, pb.width);
      PotentialDrop(Cells(pb.height, pb.width), s.g, q, s.g[p] + 1);
    }
  }

  /** Scores only falling, a direction once relaxed stays relaxed while
      the expanded cell keeps its score. */
  lemma RelaxDirections(pb: Problem, s: Search, p: Pos, q: Pos, d: nat)
    requires p in s.g && p != q && d <= |Directions|
    requires forall k :: 0 <= k < d ==> DirectionRelaxed(pb, s.g, p, k)
    ensures var s' := Relax(s, pb.goal, p, q);
      s'.g[p] == s.g[p] && forall k :: 0 <= k < d ==> DirectionRelaxed(pb, s'.g, p, k)
  {
    var s' := Relax(s, pb.goal, p, q);
    forall k | 0 <= k < d ensures DirectionRelaxed(pb, s'.g, p, k) {
      assert DirectionRelaxed(pb, s.g, p, k);
    }
  }

  /** Handling one direction of `p` records at most `p` as a new
      predecessor. */
  lemma ScanParents(pb: Problem, before: map<Pos, Pos>, s: Search, p: Pos, d: nat)
    requires d < |Directions| && p in s.g && Shaped(s.field, pb.height, pb.width)
    requires ParentsFrom(before, s.cameFrom, p)
    ensures ParentsFrom(before, Scan(pb, s, p, d).cameFrom, p)
  {
    match Neighbour(p, d, pb.height, pb.width)
    case None =>
    case Some(q) =>
      if At(s.field, q) != Wall {
        var s' := Relax(s, pb.goal, p, q);
        assert s'.cameFrom == s.cameFrom || s'.cameFrom == s.cameFrom[q := p];
      }
  }

  /** Handling one direction of `p` only pushes nodes, and pushes one for
      every score it lowers. */
  lemma ScanRequeued(pb: Problem, s0: Search, s: Search, p: Pos, d: nat)
    requires d < |Directions| && p in s.g && Shaped(s.field, pb.height, pb.width)
    requires Requeued(pb, s0, s)
    ensures Requeued(pb, s0, Scan(pb, s, p, d))
  {
    match Neighbour(p, d, pb.height, pb.width)
    case None =>
    case Some(q) =>
      if At(s.field, q) != Wall {
        RelaxRequeued(pb, s0, s, p, q);
      }
  }

  /** A relaxation pushes a node carrying the score it sets, and keeps
      every node already queued. */
  lemma RelaxRequeued(pb: Problem, s0: Search, s: Search, p: Pos, q: Pos)
    requires p in s.g && Requeued(pb, s0, s)
    ensures Requeued(pb, s0, Relax(s, pb.goal, p, q))
  {
    var s' := Relax(s, pb.goal, p, q);
    if s' != s {
      assert s.queue <= s'.queue;
      forall r | r in s'.g ensures Fresh(pb, s', r) || (r in s0.g && s'.g[r] == s0.g[r]) {
        if r == q {
          assert State(q, s'.g[q] + Heuristic(q, pb.goal)) in s'.queue;
        } else if Fresh(pb, s, r) {
          assert State(r, s.g[r] + Heuristic(r, pb.goal)) in s.queue;
        }
      }
    }
  }

  /** Once all four directions are handled, `p` is relaxed and the full
      frontier property holds again. */
  lemma ExpandDone(pb: Problem, s0: Search, s: Search, p: Pos)
    requires pb.WellFormed() && ExpandInv(pb, s0, s, p, |Directions|)
    ensures s.field == s0.field && Scores(pb, s) && Entries(pb, s) && Progress(pb, s0, s)
    ensures p in s.g && Relaxed(pb, s.g, p) && Frontier(pb, s)
  {
    forall q | Adjacent(p, q) && Open(pb.field, pb.start, q)
      ensures q in s.g && s.g[q] <= s.g[p] + 1
    {
      NeighbourComplete(p, q, pb.height, pb.width);
      var k :| 0 <= k < |Directions| && Neighbour(p, k, pb.height, pb.width) == Some(q);
      assert DirectionRelaxed(pb, s.g, p, k);
    }
    assert Relaxed(pb, s.g, p);
  }

  /** One pop-and-expand round lowers the measure (unreached cells, sum of
      scores, queue size) lexicographically. */
  lemma RoundDecreases(pb: Problem, before: Search, e: State, mid: Search, after: Search)
    requires pb.WellFormed() && e in before.queue
    requires mid.g == before.g && mid.queue == before.queue - multiset{e}
    requires Progress(pb, mid, after)
    requires forall r :: r in after.g ==> InBounds(r, pb.height, pb.width)
    ensures Unreached(pb, after.g) <= Unreached(pb, before.g)
    ensures Unreached(pb, after.g) == Unreached(pb, before.g) ==>
              Potential(Cells(pb.height, pb.width), after.g) <= Potential(Cells(pb.height, pb.width), before.g)
    ensures Unreached(pb, after.g) == Unreached(pb, before.g)
            && Potential(Cells(pb.height, pb.width), after.g) == Potential(Cells(pb.height, pb.width), before.g)
            ==> |after.queue| < |before.queue|
  {
    UnscoredNoRise(Cells(pb.height, pb.width), before.g, after.g);
    if after.g.Keys != before.g.Keys {
      var q :| q in after.g && q !in before.g;
      UnscoredDrop(Cells(pb.height, pb.width), before.g, after.g, q);
    }
    assert |mid.queue| == |before.queue| - 1;
  }

  // ----- Stopping -----

  /** Walking back along a route from the start, while no cell on it waits
      in the queue, every cell is scored within its distance from the start
      along the route; the first waiting cell has a node whose priority is
      at most the route's length. */
  lemma {:induction false} FrontierEntry(pb: Problem, s: Search, w: seq<Pos>, j: nat) returns (x: State)
    requires pb.WellFormed() && Frontier(pb, s)
    requires Joins(pb.field, pb.start, pb.goal, w)
    requires j < |w| && w[j] in s.g && s.g[w[j]] <= |w| - 1 - j
    ensures x in s.queue && x.priority <= |w| - 1
    decreases j
  {
    var r := w[j];
    assert Fresh(pb, s, r) || (r != pb.goal && Relaxed(pb, s.g, r));
    if Fresh(pb, s, r) {
      ChainBound(w, j);
      x := State(r, s.g[r] + Heuristic(r, pb.goal));
    } else {
      assert j > 0;
      RelaxedStep(pb, s.g, r, w[j - 1]) by {
        assert Adjacent(w[j - 1], r);
      }
      x := FrontierEntry(pb, s, w, j - 1);
    }
  }

  /** A relaxed cell bounds the cost of each open neighbour. */
  lemma RelaxedStep(pb: Problem, g: map<Pos, nat>, r: Pos, q: Pos)
    requires r in g && Relaxed(pb, g, r)
    requires Adjacent(q, r) && Open(pb.field, pb.start, q)
    ensures q in g && g[q] <= g[r] + 1
  {
    assert Adjacent(r, q);
  }

  /** When the node popped is the goal, its cost is no more than the
      length of any route: the first pop of the goal is optimal. */
  lemma GoalPopOptimal(pb: Problem, s: Search, e: State)
    requires pb.WellFormed() && Scores(pb, s) && Entries(pb, s) && Frontier(pb, s)
    requires IsMinimal(e, s.queue) && e.position == pb.goal
    ensures pb.goal in s.g
    ensures forall w :: Joins(pb.field, pb.start, pb.goal, w) ==> s.g[pb.goal] <= |w| - 1
  {
    forall w | Joins(pb.field, pb.start, pb.goal, w)
      ensures s.g[pb.goal] <= |w| - 1
    {
      GoalWithin(pb, s, e, w);
    }
  }

  /** The popped goal costs at most the length of the route `w`: some
      queued node has priority at most that length, and the popped node's
      priority, no higher, bounds the goal's cost. */
  lemma GoalWithin(pb: Problem, s: Search, e: State, w: seq<Pos>)
    requires pb.WellFormed() && Entries(pb, s) && Frontier(pb, s)
    requires pb.start in s.g && s.g[pb.start] == 0
    requires IsMinimal(e, s.queue) && e.position == pb.goal
    requires Joins(pb.field, pb.start, pb.goal, w)
    ensures pb.goal in s.g && s.g[pb.goal] <= |w| - 1
  {
    var x := FrontierEntry(pb, s, w, |w| - 1);
    assert Compare(e, x) != Greater;
  }

  /** If every scored cell has been relaxed, every cell of a route ending
      at the start is scored. */
  lemma {:induction false} ReachedAlong(pb: Problem, s: Search, a: Pos, w: seq<Pos>, j: nat)
    requires pb.WellFormed() && Scores(pb, s)
    requires forall p :: p in s.g ==> Relaxed(pb, s.g, p)
    requires Joins(pb.field, pb.start, a, w) && j < |w|
    ensures w[j] in s.g
    decreases |w| - j
  {
    if j < |w| - 1 {
      ReachedAlong(pb, s, a, w, j + 1);
      assert Adjacent(w[j + 1], w[j]) by { assert Adjacent(w[j], w[j + 1]); }
      assert Relaxed(pb, s.g, w[j + 1]);
    }
  }

  /** An empty queue without having popped the goal means that no route
      joins the goal to the start. */
  lemma ExhaustedUnreachable(pb: Problem, s: Search)
    requires pb.WellFormed() && Scores(pb, s) && Frontier(pb, s) && s.queue == multiset{}
    ensures pb.goal !in s.g
    ensures !Reachable(pb.field, pb.start, pb.goal)
  {
    forall p | p in s.g ensures Relaxed(pb, s.g, p) && p != pb.goal {
      assert !Fresh(pb, s, p);
    }
    forall w | Joins(pb.field, pb.start, pb.goal, w) ensures w[0] in s.g {
      ReachedAlong(pb, s, pb.goal, w, 0);
    }
  }
}

=== FILE: session.dfy ===
/** The interactive session of src/main.rs: the state the event closure
    captures (field, placement mode, `placing_walls`, `should_run_astar`,
    cursor, `start_pos`, `goal_pos`) and its reaction to each window event.
    Cells are addressed `Pos(row, col)`, that is `(y, x)`. */
module Session {
  import opened Types
  import opened Grid
  import opened SearchState
  import opened AStar

  datatype Key = KeyW | KeyS | KeyG | Space | OtherKey

  /** The window events the closure distinguishes. The cursor position is
      already converted to cell coordinates `x` (column) and `y` (row). */
  datatype Event =
    | CloseRequested
    | MouseInput(pressed: bool)
    | CursorMoved(x: nat, y: nat)
    | KeyboardInput(key: Option<Key>, pressed: bool)
    | MainEventsCleared
    | RedrawRequested
    | OtherEvent

  /** The messages printed to the console. */
  datatype Notice = MissingEndpoints | NoPathFound

  /** What one search run reports: whether the goal was reached, the route
      walked back from it, and the redraws. */
  datatype Report = Report(found: bool, route: seq<Pos>, trace: seq<Step>)

  datatype Session = Session(
    field: Field,
    height: nat,
    width: nat,
    mode: PlacementMode,
    placingWalls: bool,
    shouldRun: bool,
    cursor: Option<Pos>,
    startPos: Option<Pos>,
    goalPos: Option<Pos>,
    exited: bool)

  /** A field of empty cells. */
  function EmptyField(height: nat, width: nat): (f: Field)
    ensures Shaped(f, height, width)
    ensures forall p :: InBounds(p, height, width) ==> At(f, p) == Empty
  {
    seq(height, _ => seq(width, _ => Empty))
  }

  /** The state before any event: an empty field, wall mode, editing. */
  function Startup(height: nat, width: nat): (s: Session)
    ensures Valid(s) && s.placingWalls && !s.shouldRun
    ensures s.startPos == None && s.goalPos == None && s.mode == PlaceWall
    ensures s.height == height && s.width == width && s.cursor == None && !s.exited
    ensures forall p :: InBounds(p, height, width) ==> At(s.field, p) == Empty
  {
    Session(EmptyField(height, width), height, width, PlaceWall, true, false, None, None, None, false)
  }

  /** No cell carries a search mark. */
  ghost predicate Clean(f: Field, height: nat, width: nat)
    requires Shaped(f, height, width)
  {
    forall p :: InBounds(p, height, width) ==> At(f, p) != Visited && At(f, p) != Path
  }

  /** What every event keeps: the field has its shape; a recorded endpoint
      is in bounds; a `Start` (`Goal`) cell is where `start_pos`
      (`goal_pos`) points; a pending run has left editing and has both
      endpoints; and until the run the field carries no search marks. The
      recorded endpoint may be stale: its cell need not carry the role. */
  ghost predicate Valid(s: Session) {
    && Shaped(s.field, s.height, s.width)
    && (s.startPos.Some? ==> InBounds(s.startPos.value, s.height, s.width))
    && (s.goalPos.Some? ==> InBounds(s.goalPos.value, s.height, s.width))
    && (forall p :: InBounds(p, s.height, s.width) && At(s.field, p) == Start ==> s.startPos == Some(p))
    && (forall p :: InBounds(p, s.height, s.width) && At(s.field, p) == Goal ==> s.goalPos == Some(p))
    && (s.shouldRun ==> !s.placingWalls && s.startPos.Some? && s.goalPos.Some?)
    && (s.placingWalls || s.shouldRun ==> Clean(s.field, s.height, s.width))
  }

  /** A valid session has at most one `Start` cell and one `Goal` cell. */
  lemma SingleEndpoints(s: Session, p: Pos, q: Pos)
    requires Valid(s) && InBounds(p, s.height, s.width) && InBounds(q, s.height, s.width)
    ensures At(s.field, p) == Start && At(s.field, q) == Start ==> p == q
    ensures At(s.field, p) == Goal && At(s.field, q) == Goal ==> p == q
  {
  }

  // ----- Editing -----

  /** Wall mode: a wall becomes empty, an empty cell becomes a wall, and any
      other role is left alone. */
  function Toggle(f: Field, p: Pos): (f': Field)
    requires Has(f, p)
    ensures |f'| == |f| && forall r :: 0 <= r < |f| ==> |f'[r]| == |f[r]|
    ensures At(f', p) == match At(f, p) case Wall => Empty case Empty => Wall case other => other
    ensures forall q :: Has(f, q) && q != p ==> At(f', q) == At(f, q)
  {
    if At(f, p) == Wall then Put(f, p, Empty)
    else if At(f, p) == Empty then Put(f, p, Wall)
    else f
  }

  /** Toggling a wall or an empty cell twice restores the field. */
  lemma ToggleTwice(f: Field, p: Pos)
    requires Has(f, p) && (At(f, p) == Wall || At(f, p) == Empty)
    ensures Toggle(Toggle(f, p), p) == f
  {
    var g := Toggle(Toggle(f, p), p);
    assert g[p.row] == f[p.row];
    assert forall r :: 0 <= r < |f| && r != p.row ==> g[r] == f[r];
  }

  /** The nested loop that turns every cell of role `role` back to empty. */
  function ClearRole(f: Field, role: CellType): (f': Field)
    ensures |f'| == |f| && forall r :: 0 <= r < |f| ==> |f'[r]| == |f[r]|
    ensures forall q :: Has(f, q) ==> At(f', q) == if At(f, q) == role then Empty else At(f, q)
  {
    seq(|f|, r requires 0 <= r < |f| => seq(|f[r]|, c requires 0 <= c < |f[r]| =>
      if f[r][c] == role then Empty else f[r][c]))
  }

  /** Start or goal mode: clear the old endpoint cells of `role`, then give
      `p` the role if it is empty now. Reports whether it did. */
  function PlaceEndpoint(f: Field, p: Pos, role: CellType): (Field, bool)
    requires Has(f, p)
  {
    var cleared := ClearRole(f, role);
    if At(cleared, p) == Empty then (Put(cleared, p, role), true) else (cleared, false)
  }

  /** Placing an endpoint changes exactly this: every old cell of the role
      becomes empty, and `p` takes the role when it was empty or already
      had it. Walls and the other endpoint are never overwritten. */
  lemma PlaceEndpointEffect(f: Field, p: Pos, role: CellType)
    requires Has(f, p) && role != Empty
    ensures var (f', placed) := PlaceEndpoint(f, p, role);
            && (placed <==> At(f, p) == Empty || At(f, p) == role)
            && |f'| == |f| && (forall r :: 0 <= r < |f| ==> |f'[r]| == |f[r]|)
            && forall q :: Has(f, q) ==>
                 At(f', q) == if q == p && placed then role
                              else if At(f, q) == role then Empty
                              else At(f, q)
  {
  }

  /** A press of the mouse button on cell `p`, in the current mode. */
  function Apply(s: Session, p: Pos): Session
    requires Has(s.field, p)
  {
    match s.mode
    case PlaceWall => s.(field := Toggle(s.field, p))
    case PlaceStart =>
      var (f, placed) := PlaceEndpoint(s.field, p, Start);
      s.(field := f, startPos := if placed then Some(p) else s.startPos)
    case PlaceGoal =>
      var (f, placed) := PlaceEndpoint(s.field, p, Goal);
      s.(field := f, goalPos := if placed then Some(p) else s.goalPos)
  }

  /** The mouse-press arm: only while placing, only with a known cursor,
      and only inside the grid. */
  function Press(s: Session): (s': Session)
    requires Shaped(s.field, s.height, s.width)
  {
    if !s.placingWalls then s
    else match s.cursor
      case None => s
      case Some(c) => if InBounds(c, s.height, s.width) then Apply(s, c) else s
  }

  /** A press changes the field only at the cursor cell and only by the
      mode's rule; it moves the recorded endpoint of the mode exactly when
      the placement succeeds; nothing else changes. */
  lemma PressEffect(s: Session)
    requires Valid(s) && s.placingWalls && s.cursor.Some? && InBounds(s.cursor.value, s.height, s.width)
    ensures var p := s.cursor.value;
            var s' := Press(s);
            && s'.mode == s.mode && s'.placingWalls && !s'.shouldRun && s'.cursor == s.cursor
            && s'.height == s.height && s'.width == s.width && s'.exited == s.exited
            && Shaped(s'.field, s.height, s.width)
            && (s.mode == PlaceWall ==>
                  s'.field == Toggle(s.field, p) && s'.startPos == s.startPos && s'.goalPos == s.goalPos)
            && (s.mode == PlaceStart ==>
                  && s'.goalPos == s.goalPos
                  && s'.startPos == (if At(s.field, p) in {Empty, Start} then Some(p) else s.startPos)
                  && forall q :: InBounds(q, s.height, s.width) ==>
                       At(s'.field, q) == if q == p && At(s.field, p) in {Empty, Start} then Start
                                          else if At(s.field, q) == Start then Empty
                                          else At(s.field, q))
            && (s.mode == PlaceGoal ==>
                  && s'.startPos == s.startPos
                  && s'.goalPos == (if At(s.field, p) in {Empty, Goal} then Some(p) else s.goalPos)
                  && forall q :: InBounds(q, s.height, s.width) ==>
                       At(s'.field, q) == if q == p && At(s.field, p) in {Empty, Goal} then Goal
                                          else if At(s.field, q) == Goal then Empty
                                          else At(s.field, q))
  {
    match s.mode
    case PlaceWall => PressWall(s);
    case PlaceStart => PressStart(s);
    case PlaceGoal => PressGoal(s);
  }

  /** `PressEffect` in wall mode. */
  lemma PressWall(s: Session)
    requires Valid(s) && s.placingWalls && s.cursor.Some? && InBounds(s.cursor.value, s.height, s.width)
    requires s.mode == PlaceWall
    ensures Press(s) == s.(field := Toggle(s.field, s.cursor.value))
    ensures Valid(Press(s))
  {
  }

  /** `PressEffect` in start mode. */
  lemma PressStart(s: Session)
    requires Valid(s) && s.placingWalls && s.cursor.Some? && InBounds(s.cursor.value, s.height, s.width)
    requires s.mode == PlaceStart
    ensures var p := s.cursor.value;
            var s' := Press(s);
            && s' == s.(field := s'.field, startPos := s'.startPos)
            && Shaped(s'.field, s.height, s.width)
            && s'.startPos == (if At(s.field, p) in {Empty, Start} then Some(p) else s.startPos)
            && forall q :: InBounds(q, s.height, s.width) ==>
                 At(s'.field, q) == if q == p && At(s.field, p) in {Empty, Start} then Start
                                    else if At(s.field, q) == Start then Empty
                                    else At(s.field, q)
    ensures Valid(Press(s))
  {
    PlaceEndpointEffect(s.field, s.cursor.value, Start);
  }

  /** `PressEffect` in goal mode. */
  lemma PressGoal(s: Session)
    requires Valid(s) && s.placingWalls && s.cursor.Some? && InBounds(s.cursor.value, s.height, s.width)
    requires s.mode == PlaceGoal
    ensures var p := s.cursor.value;
            var s' := Press(s);
            && s' == s.(field := s'.field, goalPos := s'.goalPos)
            && Shaped(s'.field, s.height, s.width)
            && s'.goalPos == (if At(s.field, p) in {Empty, Goal} then Some(p) else s.goalPos)
            && forall q :: InBounds(q, s.height, s.width) ==>
                 At(s'.field, q) == if q == p && At(s.field, p) in {Empty, Goal} then Goal
                                    else if At(s.field, q) == Goal then Empty
                                    else At(s.field, q)
    ensures Valid(Press(s))
  {
    PlaceEndpointEffect(s.field, s.cursor.value, Goal);
  }

  /** Presses keep the session valid. */
  lemma PressValid(s: Session)
    requires Valid(s)
    ensures Valid(Press(s))
  {
    if s.placingWalls && s.cursor.Some? && InBounds(s.cursor.value, s.height, s.width) {
      match s.mode
      case PlaceWall => PressWall(s);
      case PlaceStart => PressStart(s);
      case PlaceGoal => PressGoal(s);
    }
  }

  /** Once the run was requested, presses are ignored; so are presses
      outside the grid or before the cursor entered the window. */
  lemma PressIgnored(s: Session)
    requires Shaped(s.field, s.height, s.width)
    requires !s.placingWalls || s.cursor.None? || !InBounds(s.cursor.value, s.height, s.width)
    ensures Press(s) == s
  {
  }

  /** A key press: W, S, G pick the placement mode; Space, while editing,
      requests the run if both endpoints were recorded and prints a notice
      otherwise; every other key is ignored. */
  function KeyDown(s: Session, k: Key): (Session, Option<Notice>) {
    match k
    case KeyW => (s.(mode := PlaceWall), None)
    case KeyS => (s.(mode := PlaceStart), None)
    case KeyG => (s.(mode := PlaceGoal), None)
    case Space =>
      if !s.placingWalls then (s, None)
      else if s.startPos.Some? && s.goalPos.Some? then (s.(placingWalls := false, shouldRun := true), None)
      else (s, Some(MissingEndpoints))
    case OtherKey => (s, None)
  }

  /** Mode keys change the mode and nothing else. */
  lemma ModeKeys(s: Session, k: Key)
    requires k != Space
    ensures KeyDown(s, k).1 == None
    ensures KeyDown(s, k).0.field == s.field && KeyDown(s, k).0 == s.(mode := KeyDown(s, k).0.mode)
    ensures k == KeyW ==> KeyDown(s, k).0.mode == PlaceWall
    ensures k == KeyS ==> KeyDown(s, k).0.mode == PlaceStart
    ensures k == KeyG ==> KeyDown(s, k).0.mode == PlaceGoal
    ensures k == OtherKey ==> KeyDown(s, k).0 == s
  {
  }

  /** Space changes the session exactly when editing with both endpoints
      recorded, and then it leaves editing and requests the run; otherwise
      (after editing, or with a run already pending) the session is
      unchanged. A notice is printed exactly when editing with an endpoint
      missing. */
  lemma SpaceGate(s: Session)
    ensures var (s', notice) := KeyDown(s, Space);
            && (s' != s <==> s.placingWalls && s.startPos.Some? && s.goalPos.Some?)
            && (s'.shouldRun <==> s.shouldRun || (s.placingWalls && s.startPos.Some? && s.goalPos.Some?))
            && (s' != s ==> s' == s.(placingWalls := false, shouldRun := true) && notice == None)
            && (notice == Some(MissingEndpoints) <==> s.placingWalls && (s.startPos.None? || s.goalPos.None?))
            && (notice != Some(MissingEndpoints) ==> notice == None)
  {
  }

  /** Key presses keep the session valid. */
  lemma KeyDownValid(s: Session, k: Key)
    requires Valid(s)
    ensures Valid(KeyDown(s, k).0)
  {
  }

  /** Every event other than the end of an event batch. */
  function React(s: Session, e: Event): (Session, Option<Notice>)
    requires Shaped(s.field, s.height, s.width) && !e.MainEventsCleared?
  {
    match e
    case CloseRequested => (s.(exited := true), None)
    case MouseInput(pressed) => (if pressed then Press(s) else s, None)
    case CursorMoved(x, y) => (s.(cursor := Some(Pos(y, x))), None)
    case KeyboardInput(key, pressed) =>
      if key.Some? && pressed then KeyDown(s, key.value) else (s, None)
    case RedrawRequested => (s, None)
    case OtherEvent => (s, None)
  }

  /** What every event other than the end of a batch keeps: validity, the
      grid's size, and, once editing has ended, the field, the pending run
      and the end of editing itself. */
  ghost predicate Keeps(s: Session, s': Session) {
    && Valid(s')
    && s'.height == s.height && s'.width == s.width
    && (!s.placingWalls ==> !s'.placingWalls && s'.shouldRun == s.shouldRun && s'.field == s.field)
  }

  lemma ReactValid(s: Session, e: Event)
    requires Valid(s) && !e.MainEventsCleared?
    ensures Keeps(s, React(s, e).0)
  {
    match e
    case MouseInput(pressed) =>
      if pressed {
        PressKeeps(s);
      }
    case KeyboardInput(key, pressed) =>
      if key.Some? && pressed {
        KeyDownKeeps(s, key.value);
      }
    case CloseRequested =>
      ValidIgnoresWindow(s, s.cursor, true);
    case CursorMoved(x, y) =>
      ValidIgnoresWindow(s, Some(Pos(y, x)), s.exited);
    case _ =>
  }

  lemma PressKeeps(s: Session)
    requires Valid(s)
    ensures Keeps(s, Press(s))
  {
    PressValid(s);
    if !s.placingWalls {
      PressIgnored(s);
    }
  }

  lemma KeyDownKeeps(s: Session, k: Key)
    requires Valid(s)
    ensures Keeps(s, KeyDown(s, k).0)
  {
    KeyDownValid(s, k);
  }

  /** The cursor and the exit flag play no part in validity. */
  lemma ValidIgnoresWindow(s: Session, cursor: Option<Pos>, exited: bool)
    requires Valid(s)
    ensures Keeps(s, s.(cursor := cursor, exited := exited))
  {
  }

  // ----- Running -----

  /** Cell by cell, a field painted after a search on a valid session:
      path cells are exactly the route's interior, visited cells exactly
      the other expanded cells that held no endpoint, endpoints keep their
      roles, and so do walls other than the start. */
  lemma PaintedCells(s: Session, result: Field, route: seq<Pos>, trace: seq<Step>)
    requires Valid(s) && s.shouldRun
    requires forall p :: p in Interior(route) ==> p != s.startPos.value && p != s.goalPos.value
    requires Shaped(result, s.height, s.width)
    requires forall p :: InBounds(p, s.height, s.width) ==> At(result, p) == Painted(s.field, trace, route, p)
    requires forall p :: InBounds(p, s.height, s.width) && p != s.startPos.value && At(s.field, p) == Wall ==>
               At(result, p) == Wall
    ensures forall p :: InBounds(p, s.height, s.width) ==>
              && (At(result, p) == Path <==> p in Interior(route))
              && (At(result, p) == Visited <==>
                    p !in Interior(route) && Expanded(p) in trace
                    && At(s.field, p) != Start && At(s.field, p) != Goal)
              && (At(s.field, p) in {Start, Goal} ==> At(result, p) == At(s.field, p))
              && (At(s.field, p) == Wall && p != s.startPos.value ==> At(result, p) == Wall)
  {
    forall p | InBounds(p, s.height, s.width)
      ensures At(s.field, p) in {Start, Goal} ==> p !in Interior(route)
      ensures At(result, p) == if p in Interior(route) then Path else VisitMark(s.field, trace, p)
    {
    }
  }

  /** What a run on a session with a pending run reports: found exactly
      when the goal can be reached, then along a shortest route and
      otherwise with no route; the "no path" notice exactly when not
      found; the trace of expansions and path marks, whose first expansion
      is the start unless it is the goal; expanded cells are reachable, and
      when the goal was not found every reachable cell was expanded. */
  ghost predicate RunReported(s: Session, r: Report, notice: Option<Notice>)
    requires Valid(s) && s.shouldRun
  {
    var start, goal := s.startPos.value, s.goalPos.value;
    && (r.found <==> Reachable(s.field, start, goal))
    && (r.found ==> Joins(s.field, start, goal, r.route)
                    && forall w :: Joins(s.field, start, goal, w) ==> |r.route| <= |w|)
    && (!r.found ==> r.route == [])
    && notice == (if r.found then None else Some(NoPathFound))
    && TraceShape(Problem(s.field, s.height, s.width, start, goal), r.trace, r.route)
    && PathExpanded(r.trace, r.route)
    && (forall p :: Expanded(p) in r.trace ==> Reachable(s.field, start, p) && p != goal)
    && (!r.found ==> forall p :: Reachable(s.field, start, p) ==> Expanded(p) in r.trace)
    && (start != goal ==> |r.trace| > 0 && r.trace[0] == Expanded(start))
    && (forall p :: p in Interior(r.route) ==> Expanded(p) in r.trace)
  }

  /** The field `f` after a run, cell by cell: path cells are exactly the
      route's interior, visited cells exactly the other expanded cells that
      held no endpoint; endpoints keep their roles, and so do walls other
      than the start. */
  ghost predicate RunPainted(s: Session, r: Report, f: Field)
    requires Valid(s) && s.shouldRun && Shaped(f, s.height, s.width)
  {
    forall p :: InBounds(p, s.height, s.width) ==>
      && (At(f, p) == Path <==> p in Interior(r.route))
      && (At(f, p) == Visited <==>
            p !in Interior(r.route) && Expanded(p) in r.trace
            && At(s.field, p) != Start && At(s.field, p) != Goal)
      && (At(s.field, p) in {Start, Goal} ==> At(f, p) == At(s.field, p))
      && (At(s.field, p) == Wall && p != s.startPos.value ==> At(f, p) == Wall)
  }

  /** The end of an event batch: a pending run is cleared and the search
      runs once on the current field with the recorded endpoints. The
      field comes back with the interior of the route marked path and the
      other expanded cells marked visited; start, goal and walls keep
      their roles, except that a stale start is entered whatever it holds. */
  method Tick(s: Session) returns (s': Session, report: Option<Report>, notice: Option<Notice>)
    requires Valid(s)
    ensures Valid(s') && !s'.shouldRun && !s'.placingWalls == !s.placingWalls
    ensures s'.height == s.height && s'.width == s.width
    ensures report.Some? <==> s.shouldRun
    ensures !s.shouldRun ==> s' == s && notice == None
    ensures s.shouldRun ==> s' == s.(field := s'.field, shouldRun := false)
    ensures report.Some? ==> RunReported(s, report.value, notice)
    ensures report.Some? ==> RunPainted(s, report.value, s'.field)
  {
    if !s.shouldRun {
      return s, None, None;
    }
    var start, goal := s.startPos.value, s.goalPos.value;
    var result, found, route, trace := AStarStepByStep(s.field, start, goal, s.height, s.width);
    s' := s.(field := result, shouldRun := false);
    report := Some(Report(found, route, trace));
    notice := if found then None else Some(NoPathFound);
    ExpandedReachable(Problem(s.field, s.height, s.width, start, goal), trace, route);
    PaintedCells(s, result, route, trace);
  }

  /** One event. */
  method Handle(s: Session, e: Event) returns (s': Session, report: Option<Report>, notice: Option<Notice>)
    requires Valid(s)
    ensures Valid(s') && s'.height == s.height && s'.width == s.width
    ensures report.Some? <==> e.MainEventsCleared? && s.shouldRun
    ensures report.Some? ==> !s'.placingWalls && !s'.shouldRun
    ensures !s.placingWalls ==> !s'.placingWalls
    ensures !s.placingWalls && !s.shouldRun ==> !s'.shouldRun
    ensures s'.placingWalls ==> s'.field == s.field || e.MouseInput?
  {
    if e.MainEventsCleared? {
      s', report, notice := Tick(s);
    } else {
      ReactValid(s, e);
      s', notice := React(s, e).0, React(s, e).1;
      report := None;
    }
  }

  /** The event loop over a finite sequence of events, ending early when
      the window is closed. The search runs at most once, and never after
      editing ended without a pending run. */
  method HandleAll(s: Session, events: seq<Event>) returns (s': Session, reports: seq<Report>, notices: seq<Notice>)
    requires Valid(s)
    ensures Valid(s')
    ensures |reports| <= 1
    ensures !s.placingWalls && !s.shouldRun ==> reports == []
    ensures !s.placingWalls ==> !s'.placingWalls
    ensures |reports| == 1 ==> !s'.placingWalls && !s'.shouldRun
  {
    s', reports, notices := s, [], [];
    var i := 0;
    while i < |events| && !s'.exited
      invariant 0 <= i <= |events|
      invariant Valid(s') && s'.height == s.height && s'.width == s.width
      invariant |reports| <= 1
      invariant |reports| == 1 ==> !s'.placingWalls && !s'.shouldRun
      invariant !s.placingWalls ==> !s'.placingWalls
      invariant !s.placingWalls && !s.shouldRun ==> reports == [] && !s'.shouldRun
    {
      var report, notice;
      s', report, notice := Handle(s', events[i]);
      if report.Some? {
        reports := reports + [report.value];
      }
      if notice.Some? {
        notices := notices + [notice.value];
      }
      i := i + 1;
    }
  }
}

=== FILE: types.dfy ===
/** Core value types shared by the editor and the search: cell roles,
    placement modes, grid positions and the priority-queue node of the
    A* search together with its ordering. */
module Types {

  /** A grid coordinate. src/astar.rs writes it `(y, x)`: row first. */
  datatype Pos = Pos(row: nat, col: nat)

  datatype Option<+T> = None | Some(value: T)

  /** The role of a cell. A cell holds exactly one role at a time. */
  datatype CellType = Empty | Wall | Start | Goal | Visited | Path

  /** Every role, each listed once. */
  const AllCellTypes: seq<CellType> := [Empty, Wall, Start, Goal, Visited, Path]

  /** What a click places while the grid is being edited. */
  datatype PlacementMode = PlaceWall | PlaceStart | PlaceGoal

  /** A search node: a position and its priority f = g + h. */
  datatype State = State(position: Pos, priority: nat)

  datatype Ordering = Less | Equal | Greater {
    function Flip(): Ordering {
      match this
      case Less => Greater
      case Equal => Equal
      case Greater => Less
    }
  }

  /** `Ord::cmp` of the search node: the priorities alone are compared. */
  function Compare(a: State, b: State): Ordering {
    if a.priority < b.priority then Less
    else if a.priority == b.priority then Equal
    else Greater
  }

  /** `PartialOrd::partial_cmp`: always defined, delegating to `Compare`. */
  function PartialCompare(a: State, b: State): Option<Ordering> {
    Some(Compare(a, b))
  }

  /** "a is ordered no later than b" under `PartialCompare`. */
  predicate NoLater(a: State, b: State) {
    PartialCompare(a, b).Some? && PartialCompare(a, b).value != Greater
  }

  /** The six roles are exhaustive and pairwise distinct. */
  lemma CellTypesExhaustive(t: CellType)
    ensures |AllCellTypes| == 6
    ensures t in AllCellTypes
    ensures forall i, j :: 0 <= i < j < |AllCellTypes| ==> AllCellTypes[i] != AllCellTypes[j]
  {
  }

  /** The ordering reads the priority only: moving either node elsewhere
      does not change how the two compare. */
  lemma CompareIgnoresPosition(a: State, b: State, p: Pos, q: Pos)
    ensures Compare(a, b) == Compare(State(p, a.priority), State(q, b.priority))
    ensures Compare(a, b) == Equal <==> a.priority == b.priority
    ensures Compare(a, b) == Less <==> a.priority < b.priority
  {
  }

  /** The derived equality compares both fields, so two nodes at different
      positions with one priority are `Equal` under `cmp` yet not `==`. */
  lemma EqualIsNotIdentity(a: State, b: State)
    requires a.priority == b.priority && a.position != b.position
    ensures Compare(a, b) == Equal && a != b
  {
  }

  /** Swapping the arguments flips the answer. */
  lemma CompareAntisymmetric(a: State, b: State)
    ensures Compare(b, a) == Compare(a, b).Flip()
  {
  }

  /** `partial_cmp` is never `None` and agrees with `cmp`; the relation it
      induces is a total preorder (reflexive, transitive, total). */
  lemma PartialCompareIsTotalPreorder(a: State, b: State, c: State)
    ensures PartialCompare(a, b) == Some(Compare(a, b))
    ensures NoLater(a, a)
    ensures NoLater(a, b) || NoLater(b, a)
    ensures NoLater(a, b) && NoLater(b, c) ==> NoLater(a, c)
  {
  }
}
